=== FILE: README.md ===
# A verified model of singularity's `src/file.c`

This project models the file utilities of singularity's `src/file.c` in Dafny:
- the stat-based classifiers `is_file`, `is_dir`, `is_link`, `is_fifo`, `is_blk`, `is_exec` and `is_owner`;
- the entry identifier `file_id`;
- the recursive directory builder `s_mkpath`;
- the whole-file helpers `fileput`, `filecat` and `copy_file`;
- the container ancestor search `container_basedir`.

Every operation acts on an immutable filesystem state (`FsState.FileSystem`). The state is a map from normalised path names to entries, plus the caller's user id and the next inode number. An operation that changes the filesystem returns the C result together with the new state.

The POSIX calls the source makes are pure functions of this state:
- `stat` follows symbolic links on the last component, with Linux's limit of 40 links;
- no lookup checks search permission on the directories along a path (see "Left out");
- `lstat` does not follow links;
- `mkdir` and `fopen(…, "w")` check permissions with owner bits, "other" bits and the root bypass;
- `fchmod` needs the caller to own the file or be root.

Paths are normalised strings (`Paths.Path`). `Paths.Dirname` is POSIX `dirname` on them, and its two fixed points are "/" and ".".

Both `s_mkpath` and `container_basedir` walk up with `dirname`. For a relative path the walk ends at ".", and there neither call returns unless "." (or `containerdir/.`) is a directory. `s_mkpath` calls itself on "." again and again; the call is not a tail call and each frame holds a `strdupa` copy, so the stack overflows and the process dies. `container_basedir` loops forever, leaking a `strdup` copy on every pass. The model makes "never returns normally" explicit with `Wrappers.Outcome.Diverges` rather than assuming termination.

Modules, one per file:
- `Wrappers` holds `Option` and `Outcome`;
- `Paths` holds the path names and `dirname`;
- `Decimal` holds the `%d`/`%lu` rendering;
- `FsState` holds the filesystem and the syscalls;
- `Classify` holds the `is_*` tests;
- `Identity` holds `file_id`;
- `MkPath` holds `s_mkpath`;
- `WholeFile` holds `fileput`, `filecat` and `copy_file`;
- `BaseDir` holds `container_basedir`.

Four behaviours of the code are easy to misread:
- **`container_basedir`, relative `dir`.** The loop stops at "/", which a relative `dir` never reaches. Its walk reaches "." and ends there only if `containerdir/.` is a directory; otherwise the loop spins (`BaseDir.BasedirFallback`, `BaseDir.BasedirRelativeAnswers`).
- **`container_basedir`, fallback.** When no candidate is a directory, the function returns the last candidate examined before "/". That is the shallowest ancestor, for example "/home" for "/home/x".
- **`filecat` and `copy_file` byte loops.** The loops keep `fgetc`'s result in an `int`, so a 0xFF byte is not taken for EOF and binary content is read in full (`WholeFile.Drain`, `WholeFile.ReadUntilEof`).
- **Handle release.** The `fstat` and `fchmod` failure paths of `copy_file` return without closing either stream (see "Left out").

Every name in the state is a file of its own: hard links are not modelled. `FsState.OneNamePerFile` states this (no two names share a device and inode number), and every operation that changes the state keeps it.

## Model

| member | source | states |
|---|---|---|
| Classify.IsFile | src/file.c:65-79 | 0 exactly when the followed lookup succeeds and finds a regular file, -1 otherwise |
| Classify.IsFifo | src/file.c:81-95 | 0 exactly when the followed lookup finds a FIFO, -1 otherwise |
| Classify.IsLink | src/file.c:97-111 | 0 exactly when the path itself (not followed) is a symbolic link, -1 otherwise |
| Classify.IsDir | src/file.c:113-127 | 0 exactly when the followed lookup finds a directory, -1 otherwise |
| Classify.IsExec | src/file.c:129-143 | 0 exactly when the followed lookup succeeds and the owner-execute bit is set, whoever the caller is |
| Classify.IsOwner | src/file.c:145-158 | 0 exactly when the followed lookup succeeds and the entry's owner is the given uid |
| Classify.IsBlk | src/file.c:160-174 | 0 exactly when the followed lookup finds a block device, -1 otherwise |
| Classify.KindsExclusive | src/file.c:65-127 | at most one of is_file, is_dir, is_fifo and is_blk succeeds on any path |
| Classify.MissingFailsAll | src/file.c:65-174 | a path naming nothing fails every test, so a missing path looks like a wrong kind |
| Classify.LinkTransparent | src/file.c:97-111 | a link to a non-link passes is_link while its target fails it; every other test gives the same answer on the link as on its target |
| FsState.StModeFields | src/file.c:74 | decoding the st_mode word recovers the kind (`S_IFMT`), the permission bits and the owner-execute bit |
| FsState.Mkdir | src/file.c:197-200 | mkdir succeeds exactly when nothing is at the path and the parent is a directory the caller may write and search; on failure the state is unchanged; on success one directory with mode `mode & 01777` (permission bits and the sticky bit), owned by the caller, is added |
| FsState.Stat | src/file.c:69 | stat succeeds exactly when the lookup ends, without a link loop, at an existing entry; it never reports a link, reports a non-link as it is, and fails on a missing name |
| FsState.LStat | src/file.c:51 | a name that fails lstat fails stat too, and on anything but a link lstat and stat agree |
| FsState.OpenTrunc | src/file.c:236-240 | fopen "w" succeeds exactly when the lookup ends at a writable entry that is neither a directory nor a socket, or at a missing name whose parent admits a new entry; it truncates a regular file, which for a caller other than root loses its set-id bits as `FsState.DropSetId` says, creates a missing one with mode 0666 and the next inode number, and leaves every other entry, and the caller's access to the opened entry, as they were |
| FsState.DropSetId | src/file.c:236-257 | what Linux leaves of a file's mode when an unprivileged caller truncates or writes it: S_ISUID is cleared, S_ISGID is cleared exactly when S_IXGRP is set, and the permission and sticky bits stay |
| FsState.AccessKept | src/file.c:236-257 | an entry that keeps its owner and its nine permission bits keeps every access the caller had to it, so dropping set-id bits never changes what may be read or written |
| FsState.MkdirKeepsOneName | src/file.c:197 | mkdir keeps every file to one name: the new directory takes an inode number no name holds |
| FsState.OpenTruncKeepsOneName | src/file.c:236 | fopen "w" keeps every file to one name |
| Identity.FileId | src/file.c:43-62 | NULL exactly when lstat fails; otherwise the caller's uid, the device number (both through `(int)`) and the inode number as "%d.%d.%lu", which never exceeds 44 characters, so the 128-byte buffer never truncates |
| Identity.RenderInjective | src/file.c:56 | two "%d.%d.%lu" renderings are equal exactly when their three numbers are |
| Identity.FileIdStable | src/file.c:51-56 | the identifier depends on an entry only through its device and inode numbers: entries that agree on both get the same identifier |
| Identity.FileIdSeparates | src/file.c:51-56 | two identifiers are equal exactly when the inode numbers agree and the device numbers agree in their low 32 bits |
| Identity.FileIdDeviceCollision | src/file.c:56 | two distinct entries on devices 1 and 2^32 + 1 with the same inode get the same identifier "0.1.2" |
| Identity.FileIdWide | src/file.c:43-62 | the identifier with the device number rendered in full: NULL exactly when lstat fails, and at most 52 characters |
| Identity.FileIdWideSeparates | src/file.c:56 | with the full device number, identifiers are equal exactly when both device and inode numbers are |
| Identity.FileIdWideIdentifies | src/file.c:43-62 | while every file has one name, the corrected identifier is equal for two names exactly when they are the same name |
| MkPath.MkTree | src/file.c:182-202 | returns 0 or -1; only directories from the path's upward walk are added, with mode `mode & 01777`, each after its parent, and existing entries are untouched; on 0 the path is a directory (or is "/"); on -1 the path itself is as it was |
| MkPath.MkPath | src/file.c:177-203 | NULL gives -1 with no change; otherwise as `MkTree`, so success leaves the path a directory |
| MkPath.MkPathExisting | src/file.c:182-189 | "/" and existing directories give 0 and leave the state unchanged |
| MkPath.MkPathIdempotent | src/file.c:177-203 | calling again after a success succeeds again and changes nothing |
| MkPath.MkTreeDiverges | src/file.c:182-194 | the recursion never returns exactly when the path is relative and nothing on its upward walk, "." included, is a directory |
| MkPath.RootGuard | src/file.c:182 | `strlength(dir, 2) == 1 && dir[0] == '/'` holds exactly for "/" |
| MkPath.MkPathReturns | src/file.c:177-203 | an absolute path, or any path while "." is a directory, always gets an answer |
| MkPath.MkTreeParentFails | src/file.c:191-194 | when the parent's call returns -1, the call returns -1 with the state the parent's call left |
| MkPath.MkTreeSucceeds | src/file.c:177-203 | for root and an absolute path, with "/" a directory, nothing on the path's upward walk other than a directory, and enough inode numbers left, the call returns 0, using at most one inode number per candidate |
| MkPath.MkTreeKeepsOneName | src/file.c:191-200 | the recursive build keeps every file to one name |
| MkPath.MkTreeUnfold | src/file.c:191-200 | once the parent's call has succeeded, a missing path is passed to mkdir on the state the parent's call left |
| MkPath.MkPathScenario | src/file.c:177-203 | with "/" and a world-writable "/tmp", making "/tmp/a/b/c" with any owner-writable, owner-searchable mode (0755, say) succeeds and creates exactly "/tmp/a", "/tmp/a/b" and "/tmp/a/b/c", in that order (inodes 10, 11, 12) |
| MkPath.MkPathPartialFailure | src/file.c:191-200 | with any mode that denies the owner write access (0555, say), making "/tmp/a/b" returns -1 and leaves the directory "/tmp/a" behind |
| WholeFile.NulPrefix | src/file.c:278 | `fprintf("%s")` writes a prefix of the string that contains no NUL and stops just before the first NUL |
| WholeFile.Drain | src/file.c:313-319 | reading with fgetc from a position until EOF yields exactly the rest of the file, 0xFF bytes included |
| WholeFile.ReadUntilEof | src/file.c:313-319 | the fgetc loop stores every byte of the file, 0xFF included, followed by one NUL: exactly the `length + 1` bytes allocated, and what `WholeFile.Drain` reads |
| WholeFile.WriteAll | src/file.c:255-257 | writing bytes to a regular file appends them to its contents and keeps its owner, its permission bits and every access the caller has; no name is added and no inode number handed out |
| WholeFile.FilePut | src/file.c:269-282 | 0 exactly when fopen "w" succeeds, -1 with no change otherwise; on 0 the file the path resolves to holds the string up to its first NUL, that name is the only one that may be new, an inode number is used only when it is, and no other name changed |
| WholeFile.SocketRefused | src/file.c:236-240 | a socket cannot be opened for writing (ENXIO on Linux), so fileput to it and copy_file onto it return -1 and change nothing |
| WholeFile.FilePutKeepsOneName | src/file.c:269-282 | fileput keeps every file to one name |
| WholeFile.FileCat | src/file.c:284-324 | the contents are returned exactly when the path is a regular file the caller may read, and they are the file's bytes as the read loop drains them |
| WholeFile.FilePutThenFileCat | src/file.c:269-324 | on a readable regular file or a missing one, filecat after a successful fileput returns the string up to its first NUL |
| WholeFile.FilePutThenFileCatExact | src/file.c:269-324 | for a string without NUL, that round trip returns the string itself |
| WholeFile.CopyFile | src/file.c:216-266 | 0 exactly when the source is a readable regular file, dest opens for writing, and the caller is root or owns dest (or creates it); when the source cannot be read or dest cannot be opened, -1 and the state, dest included, untouched |
| WholeFile.CopyFileKeepsOneName | src/file.c:216-266 | copy_file keeps every file to one name, on success and on failure |
| WholeFile.CopyFileSuccess | src/file.c:236-257 | on success dest resolves to an entry; the name dest resolves to is the only one that may be new, an inode number is used only when it is, and no other name changed |
| WholeFile.CopyFileMode | src/file.c:236-257 | on success dest carries the source's mode, less the set-id bits an unprivileged caller loses: when the file was copied onto itself (truncated), or when at least one byte was written to a regular or new dest |
| WholeFile.SetUidCopyScenario | src/file.c:236-261 | user 1000 copying a root-owned 04755 file of two bytes to a new name gets a copy with mode 0755: `fchmod` sets 04755 and the first byte written clears S_ISUID |
| WholeFile.CopyFileContents | src/file.c:236-257 | on success between distinct files, with dest a regular file or missing before, dest holds exactly the source's bytes |
| WholeFile.CopyFileOntoItself | src/file.c:236-257 | copying a file onto itself leaves it empty, because dest is truncated before the source is read |
| WholeFile.CopyFileLateFailure | src/file.c:236-252 | a failure that changes the state (fchmod after the open of dest) leaves dest an empty regular file |
| WholeFile.CopyFileThenFileCat | src/file.c:216-324 | after a successful copy between distinct files, filecat of dest equals filecat of the source, when dest is readable |
| BaseDir.Walk | src/file.c:333-340 | the loop spins only on a relative path when "." is not accepted; an answer other than the start value is a candidate other than "/" as absolute as `dir`, and an accepted answer is no longer than `dir` |
| BaseDir.ContainerBasedir | src/file.c:326-341 | a NULL argument gives NULL; otherwise the walk up `dir` testing `is_dir(containerdir/candidate)` |
| BaseDir.WalkIsFirstHit | src/file.c:333-340 | the loop examines exactly `dir`'s upward walk, in order, and answers as the first-hit search over that list |
| BaseDir.WalkFindsFirst | src/file.c:333-336 | the loop returns the first candidate its test accepts |
| BaseDir.WalkMisses | src/file.c:333-340 | with no accepted candidate: the last candidate before "/" for an absolute path, the start value for "/", and no answer for a relative path |
| BaseDir.BasedirFindsFirst | src/file.c:333-336 | container_basedir returns the first candidate on `dir`'s upward walk that is a directory under `containerdir` |
| BaseDir.BasedirFallback | src/file.c:333-340 | with no hit: NULL for "/", the last candidate before "/" for any other absolute `dir`, and no answer for a relative `dir` |
| BaseDir.BasedirRelativeAnswers | src/file.c:333-339 | while the container root is a directory, a relative `dir` always gets a non-NULL answer |
| BaseDir.BasedirScenario | src/file.c:326-341 | with only "/c/usr" below "/c", "usr/local/bin" gives "usr" |
| BaseDir.BasedirFallbackScenario | src/file.c:333-340 | with only "/c/usr" below "/c", "/home/x" finds nothing and falls back to "/home" |
| Paths.Dirname | src/file.c:191 | dirname keeps absoluteness, has "/" and "." as its only fixed points, and moves every other path strictly closer to one of them (its rank decreases) |
| Paths.DirnameBasenameSplit | src/file.c:191 | a path other than "/" is its dirname, a slash and its last component, or that component alone when relative |
| Paths.DirnameOfChild | src/file.c:191 | dirname of a component other than "." and ".." placed under a directory other than "/" and "." is that directory |
| Paths.Lineage | src/file.c:333-339 | the candidates of the walk start at the path, never include "/", keep absoluteness, and end just below "/" for an absolute path and at "." for a relative one |
| Paths.LineageChain | src/file.c:338 | each candidate of the walk is the dirname of the one before it |

## Left out

- `s_rmdir` and its callback `_unlink` (src/file.c:205-214) hand the work to `nftw` with a 32-descriptor limit. `nftw` is a C library routine whose traversal is outside this model.
- `message()` logging has no effect on any result.
- The real system calls and stdio (`stat`, `lstat`, `mkdir`, `fopen`, `fgetc`, `fputc`, `fprintf`, `fchmod`) become the pure functions of `FsState`. `getuid()` becomes the state's `caller` field.
- The real and the effective user id are assumed equal. The state's one `caller` field is both the real uid that `getuid()` returns and `file_id` renders, and the effective uid that `mkdir`, `fopen` and `fchmod` check and that owns new entries. In a setuid-root program the two differ, and the model does not cover that case.
- `joinpath` of util.h is not part of this model. `Paths.Join` gives the normalised name that `stat` would resolve the concatenation to.
- The umask is not applied: `mkdir` creates with `mode & 01777` and `fopen` creates with 0666.
- Group permissions and supplementary groups are not modelled. A non-owner is checked against the "other" bits.
- Because groups are not modelled, two group rules of Linux are left out: `fchmod` by a caller outside the file's group clears S_ISGID from the requested mode, and `mkdir` under a set-group-id directory inherits that bit. `copy_file` keeps S_ISGID of the source as `fchmod` was given it, and `mkdir` keeps `mode & 01777`.
- CAP_FSETID, which lets a caller keep the set-id bits of a file it truncates or writes, is modelled as "the caller is root".
- Symbolic links are followed on the last component of a path only, not in its directory components.
- A relative link target is looked up as a name of its own, that is relative to the working directory, not relative to the directory that holds the link.
- Search permission on the directories along a path is not checked by lookups: `stat`, `lstat` and `fopen` never fail with EACCES because an ancestor is not searchable (for example a non-root caller and a root-owned "/r" with mode 0700). Only the creation of a new entry, by `mkdir` or by `fopen` of a missing name, checks the search bit, and only on the parent.
- Hard links are not modelled: two names never share contents. Under `FsState.OneNamePerFile` (no two names with one device and inode number), which every state-changing operation keeps, distinct names are distinct files. In a state that breaks it, names with one device and inode number are treated as independent files, so what truncating or writing one name does to the others is not modelled.
- FilePut: "no other name changed" holds because hard links are not modelled; with hard links the other names of the written file would change too.
- CopyFileSuccess: likewise, "no name other than the one dest resolves to changed" assumes no hard links to dest.
- CopyFileContents: "distinct files" is stated as distinct names after following links. It matches the source only while `FsState.OneNamePerFile` holds; for two hard links to one file the source truncates the shared contents before reading and copies nothing, which the model does not show.
- CopyFileThenFileCat: the same premise as `WholeFile.CopyFileContents`, with the same limit for hard links.
- Only normalised paths are modelled: no trailing slash, no `//`, and no "." or ".." component except the whole path ".". Names such as "/tmp/.", "a/./b", "./a" or "/a/.." are outside `Paths.Path`, so no operation of the model is applied to them; resolving them through the directory tree is not modelled. A relative name is its own key in the map, and "." stands for the working directory; relative names and their absolute equivalents are not aliased.
- Stat: for the same reason, `stat` on a name with a "." or ".." component, which Linux resolves through the directories ("/tmp/." is "/tmp"), has no counterpart in the model.
- Concurrency and check-then-act races are not modelled. This includes `filecat` overflowing its buffer when the file grows between `ftell` and the read loop.
- Leaked handles are not modelled: the `FILE*` handles on the `fstat` and `fchmod` failure paths of `copy_file`, and `filecat`'s handle when `fseek` fails.
- Leaked `strdup` results in `container_basedir`, and its `strdup(dir)` before the NULL check, are not modelled. (`s_mkpath`'s `strdupa` copies live on the stack and are not leaks.) When `dir` is NULL, real C would fault in `strdup`; the model returns NULL.
- Failures of `fstat` on an open stream, of `fseek`/`ftell`, of `malloc`, and of individual `fputc`/`fprintf` writes are not modelled; they cannot happen in the abstract state.
- Opening a FIFO blocks until a peer appears, which is not modelled. Writes to a special file leave its entry as it is.
- `Classify.IsOwner` compares the owner with `uid` through the `(int)` cast of the source. On a 32-bit uid the cast and the unsigned comparison cancel out, so the model states plain equality.

## Findings

| source | as written | input that shows it | evidently intended | confidence | as-written member | corrected member |
|---|---|---|---|---|---|---|
| src/file.c:56 | `(int)filestat.st_dev` keeps only the low 32 bits of the 64-bit device number, so entries on devices that differ by a multiple of 2^32 and share an inode number get the same identifier | devices 1 and 0x1_0000_0001, inode 2, caller uid 0: both render "0.1.2" | the device number rendered in full, so identifiers differ whenever device or inode differ | low, not executed (the device numbers Linux hands out usually fit in 32 bits, so the collision needs an unusual device) | Identity.FileIdDeviceCollision | Identity.FileIdWideSeparates |

=== FILE: basedir.dfy ===
/**
 * `container_basedir(containerdir, dir)`: walks up from `dir` with
 * `dirname` and returns the first candidate `c` for which
 * `containerdir/c` is a directory. The walk stops before "/"; when no
 * candidate was found by then, the last candidate examined is returned
 * instead. A relative `dir` reaches ".", a fixed point of `dirname`, whose
 * candidate `containerdir/.` is the container root itself: the loop ends
 * there if the root is a directory and spins forever otherwise, which the
 * model makes explicit as `Diverges`.
 */
module BaseDir {
  import opened Wrappers
  import opened Paths
  import opened FsState
  import opened Classify

  /** `is_dir(joinpath(root, c)) == 0`. */
  predicate DirUnder(fs: FileSystem, root: Path, c: Path) {
    IsDir(fs, Join(root, c)) == 0
  }

  /** The loop's test as a function of the candidate. */
  function DirTest(fs: FileSystem, root: Path): Path -> bool {
    (c: Path) => DirUnder(fs, root, c)
  }

  /** The `while` loop, from candidate `testdir` with `prevdir` the
      candidate examined before it; `hit` is the loop's test, which
      `container_basedir` instantiates with `DirUnder`. */
  function Walk(hit: Path -> bool, testdir: Path, prevdir: Option<Path>): (o: Outcome<Option<Path>>)
    decreases Rank(testdir)
    ensures o.Diverges? ==> !Absolute(testdir) && !hit(".")
    ensures o.Returns? && o.value != prevdir ==>
      o.value.Some? && o.value.value != "/" && (Absolute(o.value.value) <==> Absolute(testdir))
    ensures o.Returns? && o.value.Some? && hit(o.value.value) && o.value != prevdir ==> Rank(o.value.value) <= Rank(testdir)
  {
    if testdir == "/" then Returns(prevdir)
    else if hit(testdir) then Returns(Some(testdir))
    else if testdir == "." then Diverges
    else Walk(hit, Dirname(testdir), Some(testdir))
  }

  /** `container_basedir`; `None` stands for a NULL argument or result. */
  function ContainerBasedir(fs: FileSystem, containerdir: Option<Path>, dir: Option<Path>): (o: Outcome<Option<Path>>)
    ensures containerdir.None? || dir.None? ==> o == Returns(None)
  {
    if containerdir.None? || dir.None? then Returns(None)
    else Walk(DirTest(fs, containerdir.value), dir.value, None)
  }

  /** The loop read over the list of candidates it examines: the first
      one the test accepts; failing that, the last one examined, or
      `prevdir` when there are none; and no answer once "." is rejected,
      since the loop would test it again forever. */
  function FirstHit(hit: Path -> bool, l: seq<Path>, prevdir: Option<Path>): Outcome<Option<Path>>
    decreases |l|
  {
    if |l| == 0 then Returns(prevdir)
    else if hit(l[0]) then Returns(Some(l[0]))
    else if l[0] == "." then Diverges
    else FirstHit(hit, l[1..], Some(l[0]))
  }

  /** The loop examines exactly `Lineage(testdir)`, in order. */
  lemma {:induction false} WalkIsFirstHit(hit: Path -> bool, t: Path, prev: Option<Path>)
    ensures Walk(hit, t, prev) == FirstHit(hit, Lineage(t), prev)
    decreases Rank(t)
  {
    if t != "/" && t != "." {
      LineageStep(t);
      var l := Lineage(t);
      assert l[0] == t && l[1..] == Lineage(Dirname(t));
      WalkIsFirstHit(hit, Dirname(t), Some(t));
    }
  }

  /** The first accepted candidate is returned, provided no "." was
      rejected before it. */
  lemma {:induction false} FirstHitAt(hit: Path -> bool, l: seq<Path>, prev: Option<Path>, i: nat)
    requires i < |l| && hit(l[i])
    requires forall j :: 0 <= j < i ==> !hit(l[j]) && l[j] != "."
    ensures FirstHit(hit, l, prev) == Returns(Some(l[i]))
    decreases i
  {
    if i > 0 {
      assert !hit(l[0]) && l[0] != ".";
      assert forall j :: 0 <= j < i - 1 ==> l[1..][j] == l[j + 1];
      FirstHitAt(hit, l[1..], Some(l[0]), i - 1);
    }
  }

  /** With nothing accepted and "." at most at the end: `prevdir` for an
      empty list, no answer when the list ends in ".", and the last
      candidate otherwise. */
  lemma {:induction false} FirstHitMisses(hit: Path -> bool, l: seq<Path>, prev: Option<Path>)
    requires forall j :: 0 <= j < |l| ==> !hit(l[j])
    requires forall j :: 0 <= j < |l| - 1 ==> l[j] != "."
    ensures |l| == 0 ==> FirstHit(hit, l, prev) == Returns(prev)
    ensures |l| > 0 && l[|l| - 1] == "." ==> FirstHit(hit, l, prev) == Diverges
    ensures |l| > 0 && l[|l| - 1] != "." ==> FirstHit(hit, l, prev) == Returns(Some(l[|l| - 1]))
    decreases |l|
  {
    if |l| > 1 {
      assert !hit(l[0]) && l[0] != ".";
      var r := l[1..];
      assert forall j :: 0 <= j < |r| ==> r[j] == l[j + 1];
      assert r[|r| - 1] == l[|l| - 1];
      FirstHitMisses(hit, r, Some(l[0]));
    } else if |l| == 1 {
      assert !hit(l[0]);
    }
  }

  /** The walk returns the first candidate the test accepts. */
  lemma WalkFindsFirst(hit: Path -> bool, t: Path, prev: Option<Path>, i: nat)
    requires i < |Lineage(t)| && hit(Lineage(t)[i])
    requires forall j :: 0 <= j < i ==> !hit(Lineage(t)[j])
    ensures Walk(hit, t, prev) == Returns(Some(Lineage(t)[i]))
  {
    WalkIsFirstHit(hit, t, prev);
    FirstHitAt(hit, Lineage(t), prev, i);
  }

  /** When the test accepts no candidate, an absolute walk returns the last
      candidate before "/" (or what it started with, for "/" itself), and a
      relative one never ends. */
  lemma WalkMisses(hit: Path -> bool, t: Path, prev: Option<Path>)
    requires forall j :: 0 <= j < |Lineage(t)| ==> !hit(Lineage(t)[j])
    ensures Absolute(t) ==>
      (Walk(hit, t, prev) == Returns(if t == "/" then prev else Some(Lineage(t)[|Lineage(t)| - 1])))
    ensures !Absolute(t) ==> Walk(hit, t, prev).Diverges?
  {
    WalkIsFirstHit(hit, t, prev);
    FirstHitMisses(hit, Lineage(t), prev);
  }

  /** A relative walk whose test accepts "." always ends with an answer. */
  lemma {:induction false} WalkRelativeAnswers(hit: Path -> bool, t: Path, prev: Option<Path>)
    requires !Absolute(t) && hit(".")
    ensures Walk(hit, t, prev).Returns? && Walk(hit, t, prev).value.Some?
    decreases Rank(t)
  {
    if t != "." && !hit(t) {
      WalkRelativeAnswers(hit, Dirname(t), Some(t));
    }
  }

  /** `container_basedir` returns the first element of `dir`'s upward walk
      that is a directory under `containerdir`. */
  lemma BasedirFindsFirst(fs: FileSystem, root: Path, dir: Path, i: nat)
    requires i < |Lineage(dir)| && DirUnder(fs, root, Lineage(dir)[i])
    requires forall j :: 0 <= j < i ==> !DirUnder(fs, root, Lineage(dir)[j])
    ensures ContainerBasedir(fs, Some(root), Some(dir)) == Returns(Some(Lineage(dir)[i]))
  {
    var hit := DirTest(fs, root);
    assert ContainerBasedir(fs, Some(root), Some(dir)) == Walk(hit, dir, None);
    assert hit(Lineage(dir)[i]);
    WalkFindsFirst(hit, dir, None, i);
  }

  /** With no hit: `NULL` for "/", the last candidate before "/" for any
      other absolute `dir`, and no answer at all for a relative `dir`. */
  lemma BasedirFallback(fs: FileSystem, root: Path, dir: Path)
    requires forall j :: 0 <= j < |Lineage(dir)| ==> !DirUnder(fs, root, Lineage(dir)[j])
    ensures dir == "/" ==> ContainerBasedir(fs, Some(root), Some(dir)) == Returns(None)
    ensures Absolute(dir) && dir != "/" ==>
      ContainerBasedir(fs, Some(root), Some(dir)) == Returns(Some(Lineage(dir)[|Lineage(dir)| - 1]))
    ensures !Absolute(dir) ==> ContainerBasedir(fs, Some(root), Some(dir)).Diverges?
  {
    var hit := DirTest(fs, root);
    assert ContainerBasedir(fs, Some(root), Some(dir)) == Walk(hit, dir, None);
    WalkMisses(hit, dir, None);
  }

  /** While the container root is a directory, a relative `dir` always gets
      an answer: the walk ends at "." at the latest. */
  lemma BasedirRelativeAnswers(fs: FileSystem, root: Path, dir: Path)
    requires !Absolute(dir) && IsDir(fs, root) == 0
    ensures ContainerBasedir(fs, Some(root), Some(dir)).Returns?
    ensures ContainerBasedir(fs, Some(root), Some(dir)).value.Some?
  {
    var hit := DirTest(fs, root);
    assert ContainerBasedir(fs, Some(root), Some(dir)) == Walk(hit, dir, None);
    assert hit(".");
    WalkRelativeAnswers(hit, dir, None);
  }

  /** A state where "/c/usr" is the only directory below the root "/c". */
  function UsrOnly(): FileSystem {
    FileSystem(map["/" := Entry(Dir, 0x1ED, 0, 1, 2), "/c" := Entry(Dir, 0x1ED, 0, 1, 3),
                   "/c/usr" := Entry(Dir, 0x1ED, 0, 1, 4)], 0, 5)
  }

  /** The upward walk from "usr/local/bin". */
  lemma UsrLocalBinWalk()
    ensures Normal("usr/local/bin") && Normal("usr/local") && Normal("usr")
    ensures Dirname("usr/local/bin") == "usr/local" && Dirname("usr/local") == "usr"
  {
    DirnameOfName("usr");
    ChildAt("usr", "local", "usr/local");
    ChildAt("usr/local", "bin", "usr/local/bin");
  }

  /** `DirnameOfChild` for a child whose full name is given as `p`. */
  lemma ChildAt(d: Path, name: string, p: string)
    requires d != "/" && d != "." && |name| > 0 && '/' !in name && name != "." && name != ".."
    requires p == d + "/" + name
    ensures Normal(p) && Dirname(p) == d
  {
    DirnameOfChild(d, name);
  }

  /** "/c/usr" is a directory in `UsrOnly()`. */
  lemma UsrOnlyHit()
    ensures DirUnder(UsrOnly(), "/c", "usr")
  {
    var fs := UsrOnly();
    assert Join("/c", "usr") == "/c/usr";
    assert Stat(fs, "/c/usr") == Some(fs.entries["/c/usr"]);
  }

  /** Nothing in `UsrOnly()` has a name longer than six characters. */
  lemma UsrOnlyMiss(c: Path)
    requires c != "." && c != "/" && |c| > 4
    ensures !DirUnder(UsrOnly(), "/c", c)
  {
    var fs := UsrOnly();
    assert |Join("/c", c)| > 6;
    assert forall k :: k in fs.entries ==> |k| <= 6;
    MissingFailsAll(fs, Join("/c", c), 0);
  }

  /** The first three candidates of the walk from "usr/local/bin". */
  lemma UsrLocalBinLineage()
    ensures |Lineage("usr/local/bin")| > 2
    ensures Lineage("usr/local/bin")[0] == "usr/local/bin" && Lineage("usr/local/bin")[1] == "usr/local"
    ensures Lineage("usr/local/bin")[2] == "usr"
  {
    UsrLocalBinWalk();
    LineageStep("usr/local/bin");
    LineageStep("usr/local");
  }

  /** Looking up "usr/local/bin" under "/c" skips the two missing
      candidates and stops at "usr". */
  lemma BasedirScenario()
    ensures ContainerBasedir(UsrOnly(), Some("/c"), Some("usr/local/bin")) == Returns(Some("usr"))
  {
    UsrLocalBinLineage();
    BasedirScenarioAt(UsrOnly(), "/c", "usr/local/bin");
  }

  /** The same, with the arguments named rather than spelled out, which
      keeps the solver from evaluating the walk on the literals. */
  lemma BasedirScenarioAt(fs: FileSystem, root: Path, dir: Path)
    requires fs == UsrOnly() && root == "/c" && dir == "usr/local/bin"
    ensures ContainerBasedir(fs, Some(root), Some(dir)) == Returns(Some("usr"))
  {
    UsrLocalBinLineage();
    ScenarioHit(fs, root, dir);
    ScenarioMisses(fs, root, dir);
    BasedirFindsFirst(fs, root, dir, 2);
  }

  /** The third candidate is a directory under the root... */
  lemma ScenarioHit(fs: FileSystem, root: Path, dir: Path)
    requires fs == UsrOnly() && root == "/c" && dir == "usr/local/bin"
    ensures 2 < |Lineage(dir)| && DirUnder(fs, root, Lineage(dir)[2])
  {
    UsrLocalBinLineage();
    UsrOnlyHit();
  }

  /** ... and the two before it are not. */
  lemma ScenarioMisses(fs: FileSystem, root: Path, dir: Path)
    requires fs == UsrOnly() && root == "/c" && dir == "usr/local/bin"
    ensures 2 < |Lineage(dir)| && forall j :: 0 <= j < 2 ==> !DirUnder(fs, root, Lineage(dir)[j])
  {
    UsrLocalBinLineage();
    UsrOnlyMiss("usr/local");
    UsrOnlyMiss("usr/local/bin");
  }

  /** Looking up "/home/x" under "/c" finds nothing and falls back to "/home",
      the last candidate before "/". */
  lemma BasedirFallbackScenario()
    ensures ContainerBasedir(UsrOnly(), Some("/c"), Some("/home/x")) == Returns(Some("/home"))
  {
    DirnameOfRootChild("home");
    DirnameOfChild("/home", "x");
    assert "/" + "home" == "/home" && "/home" + "/" + "x" == "/home/x";
    UsrOnlyMiss("/home/x");
    UsrOnlyMiss("/home");
  }
}

=== FILE: classify.dfy ===
/**
 * The stat-based predicates of file.c (`is_file`, `is_dir`, `is_link`,
 * `is_fifo`, `is_blk`, `is_exec`, `is_owner`). Each returns 0 when the
 * metadata lookup succeeds and its one test on the result holds, and -1
 * otherwise, so a missing path and a path of the wrong kind look the same.
 * `is_link` uses the non-following lookup, every other one the following
 * lookup.
 */
module Classify {
  import opened Wrappers
  import opened Paths
  import opened FsState

  /** `is_file`: `S_ISREG` on the followed metadata. */
  function IsFile(fs: FileSystem, p: Path): (r: int)
    ensures r == 0 || r == -1
    ensures r == 0 <==> Stat(fs, p).Some? && Stat(fs, p).value.node.Reg?
  {
    match Stat(fs, p)
    case None => -1
    case Some(st) => StModeFields(st); if FormatOf(StMode(st)) == 0x8 then 0 else -1
  }

  /** `is_fifo`: `S_ISFIFO` on the followed metadata. */
  function IsFifo(fs: FileSystem, p: Path): (r: int)
    ensures r == 0 || r == -1
    ensures r == 0 <==> Stat(fs, p).Some? && Stat(fs, p).value.node.Fifo?
  {
    match Stat(fs, p)
    case None => -1
    case Some(st) => StModeFields(st); if FormatOf(StMode(st)) == 0x1 then 0 else -1
  }

  /** `is_link`: `S_ISLNK` on the metadata of `p` itself. */
  function IsLink(fs: FileSystem, p: Path): (r: int)
    ensures r == 0 || r == -1
    ensures r == 0 <==> p in fs.entries && fs.entries[p].node.Lnk?
  {
    match LStat(fs, p)
    case None => -1
    case Some(st) => StModeFields(st); if FormatOf(StMode(st)) == 0xA then 0 else -1
  }

  /** `is_dir`: `S_ISDIR` on the followed metadata. */
  function IsDir(fs: FileSystem, p: Path): (r: int)
    ensures r == 0 || r == -1
    ensures r == 0 <==> Stat(fs, p).Some? && Stat(fs, p).value.node.Dir?
  {
    match Stat(fs, p)
    case None => -1
    case Some(st) => StModeFields(st); if FormatOf(StMode(st)) == 0x4 then 0 else -1
  }

  /** `is_exec`: only the owner-execute bit (0100) is examined, not whether
      the caller could actually execute the file. */
  function IsExec(fs: FileSystem, p: Path): (r: int)
    ensures r == 0 || r == -1
    ensures r == 0 <==> Stat(fs, p).Some? && (Stat(fs, p).value.perm / 0x40) % 2 == 1
  {
    match Stat(fs, p)
    case None => -1
    case Some(st) => StModeFields(st); if OwnerExec(StMode(st)) then 0 else -1
  }

  /** `is_owner`: compares the owner with `uid`; the `(int)` cast on
      `st_uid` is undone by the comparison with the unsigned `uid`. */
  function IsOwner(fs: FileSystem, p: Path, uid: Uid): (r: int)
    ensures r == 0 || r == -1
    ensures r == 0 <==> Stat(fs, p).Some? && Stat(fs, p).value.uid == uid
  {
    match Stat(fs, p)
    case None => -1
    case Some(st) => if uid == ToInt32(st.uid) % 0x1_0000_0000 then 0 else -1
  }

  /** `is_blk`: `S_ISBLK` on the followed metadata. */
  function IsBlk(fs: FileSystem, p: Path): (r: int)
    ensures r == 0 || r == -1
    ensures r == 0 <==> Stat(fs, p).Some? && Stat(fs, p).value.node.Blk?
  {
    match Stat(fs, p)
    case None => -1
    case Some(st) => StModeFields(st); if FormatOf(StMode(st)) == 0x6 then 0 else -1
  }

  function Hit(r: int): nat {
    if r == 0 then 1 else 0
  }

  /** At most one of the four type tests on the followed metadata succeeds
      for any path. */
  lemma KindsExclusive(fs: FileSystem, p: Path)
    ensures Hit(IsFile(fs, p)) + Hit(IsDir(fs, p)) + Hit(IsFifo(fs, p)) + Hit(IsBlk(fs, p)) <= 1
  {
  }

  /** A path that names nothing fails every test. */
  lemma MissingFailsAll(fs: FileSystem, p: Path, uid: Uid)
    requires p !in fs.entries
    ensures IsFile(fs, p) == -1 && IsDir(fs, p) == -1 && IsLink(fs, p) == -1
    ensures IsFifo(fs, p) == -1 && IsBlk(fs, p) == -1
    ensures IsExec(fs, p) == -1 && IsOwner(fs, p, uid) == -1
  {
  }

  /** A link to an entry that is not itself a link is reported as a link by
      `is_link` only; every other test sees through it to the target. */
  lemma LinkTransparent(fs: FileSystem, p: Path, uid: Uid)
    requires p in fs.entries && fs.entries[p].node.Lnk?
    requires fs.entries[p].node.target in fs.entries
    requires !fs.entries[fs.entries[p].node.target].node.Lnk?
    ensures var t := fs.entries[p].node.target;
      && IsLink(fs, p) == 0 && IsLink(fs, t) == -1
      && IsFile(fs, p) == IsFile(fs, t) && IsDir(fs, p) == IsDir(fs, t)
      && IsFifo(fs, p) == IsFifo(fs, t) && IsBlk(fs, p) == IsBlk(fs, t)
      && IsExec(fs, p) == IsExec(fs, t) && IsOwner(fs, p, uid) == IsOwner(fs, t, uid)
  {
    var t := fs.entries[p].node.target;
    assert Resolve(fs, p, MaxSymlinks) == Resolve(fs, t, MaxSymlinks - 1);
  }
}

=== FILE: decimal.dfy ===
/**
 * Decimal rendering of integers, as `snprintf`'s `%d` and `%lu` conversions
 * produce it, with the facts needed to reason about identifiers built from
 * such renderings: every rendering is non-empty, made of digits (after an
 * optional minus sign), bounded in length, and determines the number.
 */
module Decimal {

  predicate IsDigit(c: char) {
    '0' <= c <= '9'
  }

  predicate AllDigits(s: string) {
    forall i :: 0 <= i < |s| ==> IsDigit(s[i])
  }

  function DigitChar(d: nat): (c: char)
    requires d < 10
    ensures IsDigit(c) && DigitValue(c) == d
  {
    (d + '0' as int) as char
  }

  function DigitValue(c: char): nat
    requires IsDigit(c)
  {
    c as int - '0' as int
  }

  /** `%lu`: the decimal digits of `n`, most significant first, no leading zeros. */
  function NatToString(n: nat): (s: string)
    decreases n
    ensures |s| > 0 && AllDigits(s)
  {
    if n < 10 then [DigitChar(n)]
    else NatToString(n / 10) + [DigitChar(n % 10)]
  }

  /** Reads a string of digits back as a number. */
  function ParseNat(s: string): nat
    requires AllDigits(s)
  {
    if |s| == 0 then 0
    else ParseNat(s[..|s| - 1]) * 10 + DigitValue(s[|s| - 1])
  }

  /** Reading back a rendering yields the number rendered. */
  lemma {:induction false} ParseNatToString(n: nat)
    ensures ParseNat(NatToString(n)) == n
    decreases n
  {
    if n >= 10 {
      var s := NatToString(n);
      assert s[..|s| - 1] == NatToString(n / 10);
      ParseNatToString(n / 10);
    }
  }

  lemma NatToStringInjective(a: nat, b: nat)
    ensures NatToString(a) == NatToString(b) <==> a == b
  {
    if NatToString(a) == NatToString(b) {
      ParseNatToString(a);
      ParseNatToString(b);
    }
  }

  function Pow10(k: nat): (p: nat)
    ensures p >= 1
  {
    if k == 0 then 1 else 10 * Pow10(k - 1)
  }

  /** A number below 10^k takes at most k digits. */
  lemma {:induction false} NatToStringLength(n: nat, k: nat)
    requires k >= 1 && n < Pow10(k)
    ensures |NatToString(n)| <= k
    decreases n
  {
    if n >= 10 {
      assert k >= 2;
      NatToStringLength(n / 10, k - 1);
    }
  }

  /** `%d`: an optional minus sign followed by the digits of the magnitude. */
  function IntToString(i: int): (s: string)
    ensures |s| > 0 && '.' !in s
  {
    if i < 0 then "-" + NatToString(-i) else NatToString(i)
  }

  /** The first character of a rendering tells the sign. */
  lemma IntToStringSign(i: int)
    ensures IntToString(i)[0] == '-' <==> i < 0
  {
    if i >= 0 {
      assert IsDigit(NatToString(i)[0]);
    }
  }

  lemma IntToStringInjective(a: int, b: int)
    ensures IntToString(a) == IntToString(b) <==> a == b
  {
    IntToStringSign(a);
    IntToStringSign(b);
    if IntToString(a) == IntToString(b) {
      if a < 0 {
        assert NatToString(-a) == IntToString(a)[1..];
        assert NatToString(-b) == IntToString(b)[1..];
        NatToStringInjective(-a, -b);
      } else {
        NatToStringInjective(a, b);
      }
    }
  }

  /** Every 32-bit signed value renders in at most 11 characters and every
      64-bit unsigned value in at most 20. */
  lemma RenderingBounds(i: int, n: nat)
    requires -0x8000_0000 <= i < 0x8000_0000 && n < 0x1_0000_0000_0000_0000
    ensures |IntToString(i)| <= 11
    ensures |NatToString(n)| <= 20
  {
    assert Pow10(10) == 10_000_000_000;
    assert Pow10(20) == 100_000_000_000_000_000_000;
    if i < 0 {
      NatToStringLength(-i, 10);
    } else {
      NatToStringLength(i, 10);
    }
    NatToStringLength(n, 20);
  }

  /** A 32-bit unsigned value renders in at most 10 characters. */
  lemma Uint32Digits(n: nat)
    requires n < 0x1_0000_0000
    ensures |NatToString(n)| <= 10
  {
    assert Pow10(10) == 10_000_000_000;
    NatToStringLength(n, 10);
  }
}

=== FILE: file_id.dfy ===
/**
 * `file_id`: an identifier for the entry a path names, made of the caller's
 * user id, the entry's device number and its inode number, rendered as
 * `"%d.%d.%lu"` into a 128-byte buffer. The `(int)` casts of the source are
 * modelled as written: the user id and the device number are reduced to
 * their low 32 bits and read as signed.
 */
module Identity {
  import opened Wrappers
  import opened Paths
  import opened Decimal
  import opened FsState

  /** `snprintf` into a buffer of this many bytes keeps one fewer
      characters, leaving room for the terminating NUL. */
  const IdBufferSize: nat := 128

  function Truncate(s: string, n: nat): (t: string)
    ensures |t| <= n
  {
    if |s| <= n then s else s[..n]
  }

  /** `"%d.%d.%lu"` of three numbers. */
  function Render(a: int, b: int, c: nat): string {
    IntToString(a) + "." + IntToString(b) + "." + NatToString(c)
  }

  /** `file_id(path)`: `NULL` when `lstat` fails, otherwise the caller's uid,
      the device number and the inode number of the entry itself (a link is
      not followed). The rendering never reaches the buffer's limit, so the
      truncation `snprintf` would apply never happens. */
  function FileId(fs: FileSystem, path: Path): (r: Option<string>)
    ensures r.None? <==> path !in fs.entries
    ensures r.Some? ==> |r.value| <= 44
    ensures r.Some? ==> r.value == Render(ToInt32(fs.caller), ToInt32(fs.entries[path].dev), fs.entries[path].ino)
  {
    match LStat(fs, path)
    case None => None
    case Some(st) =>
      RenderingBounds(ToInt32(fs.caller), st.ino);
      RenderingBounds(ToInt32(st.dev), st.ino);
      Some(Truncate(Render(ToInt32(fs.caller), ToInt32(st.dev), st.ino), IdBufferSize - 1))
  }

  /** In `x + "." + y` with no `.` in `x`, the first `.` is at `|x|`. */
  lemma FirstDot(x: string, y: string)
    requires '.' !in x
    ensures (x + "." + y)[|x|] == '.'
    ensures forall i :: 0 <= i < |x| ==> (x + "." + y)[i] != '.'
  {
    assert forall i :: 0 <= i < |x| ==> (x + "." + y)[i] == x[i];
  }

  /** Splitting at the first `.` recovers both halves when the left half has
      no `.` of its own. */
  lemma SplitAtDot(x: string, y: string, x': string, y': string)
    requires '.' !in x && '.' !in x'
    requires x + "." + y == x' + "." + y'
    ensures x == x' && y == y'
  {
    var s := x + "." + y;
    FirstDot(x, y);
    FirstDot(x', y');
    assert |x| == |x'|;
    assert x == s[..|x|] == x';
    assert y == s[|x| + 1..] == y';
  }

  /** Three dot-separated fields, the first two free of dots, are
      recovered from their concatenation. */
  lemma SplitFields(x: string, y: string, z: string, x': string, y': string, z': string)
    requires '.' !in x && '.' !in y && '.' !in x' && '.' !in y'
    requires x + "." + y + "." + z == x' + "." + y' + "." + z'
    ensures x == x' && y == y' && z == z'
  {
    assert x + "." + y + "." + z == x + "." + (y + "." + z);
    assert x' + "." + y' + "." + z' == x' + "." + (y' + "." + z');
    SplitAtDot(x, y + "." + z, x', y' + "." + z');
    SplitAtDot(y, z, y', z');
  }

  /** Two renderings agree exactly when the three numbers do. */
  lemma RenderInjective(a: int, b: int, c: nat, a': int, b': int, c': nat)
    ensures Render(a, b, c) == Render(a', b', c') <==> a == a' && b == b' && c == c'
  {
    if Render(a, b, c) == Render(a', b', c') {
      SplitFields(IntToString(a), IntToString(b), NatToString(c), IntToString(a'), IntToString(b'), NatToString(c'));
      IntToStringInjective(a, a');
      IntToStringInjective(b, b');
      NatToStringInjective(c, c');
    }
  }

  /** The identifier depends on an entry only through its device and inode
      numbers: entries that agree on both get the same identifier. */
  lemma FileIdStable(fs: FileSystem, p: Path, q: Path)
    requires p in fs.entries && q in fs.entries
    requires fs.entries[p].dev == fs.entries[q].dev && fs.entries[p].ino == fs.entries[q].ino
    ensures FileId(fs, p) == FileId(fs, q) != None
  {
  }

  /** Two identifiers are equal exactly when the inode numbers agree and the
      device numbers agree in their low 32 bits. */
  lemma FileIdSeparates(fs: FileSystem, p: Path, q: Path)
    requires p in fs.entries && q in fs.entries
    ensures FileId(fs, p) == FileId(fs, q) <==>
      ToInt32(fs.entries[p].dev) == ToInt32(fs.entries[q].dev) && fs.entries[p].ino == fs.entries[q].ino
  {
    var e, e' := fs.entries[p], fs.entries[q];
    RenderInjective(ToInt32(fs.caller), ToInt32(e.dev), e.ino, ToInt32(fs.caller), ToInt32(e'.dev), e'.ino);
  }

  /** The `(int)` cast folds device numbers that differ by 2^32 together:
      two distinct entries, same inode number, devices 1 and 2^32 + 1, get
      the same identifier. */
  lemma FileIdDeviceCollision()
    ensures var e1 := Entry(Reg([]), 0x1A4, 0, 1, 2);
            var e2 := Entry(Reg([]), 0x1A4, 0, 0x1_0000_0001, 2);
            var fs := FileSystem(map["/a" := e1, "/b" := e2], 0, 3);
            e1 != e2 && FileId(fs, "/a") == FileId(fs, "/b") == Some("0.1.2")
  {
    var e1 := Entry(Reg([]), 0x1A4, 0, 1, 2);
    var e2 := Entry(Reg([]), 0x1A4, 0, 0x1_0000_0001, 2);
    var fs := FileSystem(map["/a" := e1, "/b" := e2], 0, 3);
    assert ToInt32(e2.dev) == 1;
    assert NatToString(0) == "0" && NatToString(1) == "1" && NatToString(2) == "2";
    assert Render(0, 1, 2) == "0.1.2";
    assert FileId(fs, "/a") == Some(Render(0, 1, 2));
    FileIdSeparates(fs, "/a", "/b");
  }

  /** The identifier with the device number rendered in full (`%u.%lu.%lu`
      of the uid, device and inode numbers), which the collision above shows
      the source evidently meant. */
  function FileIdWide(fs: FileSystem, path: Path): (r: Option<string>)
    ensures r.None? <==> path !in fs.entries
    ensures r.Some? ==> |r.value| <= 52
  {
    match LStat(fs, path)
    case None => None
    case Some(st) =>
      Uint32Digits(fs.caller);
      RenderingBounds(0, st.dev);
      RenderingBounds(0, st.ino);
      Some(Truncate(Render(fs.caller, st.dev, st.ino), IdBufferSize - 1))
  }

  /** With the device rendered in full, identifiers are equal exactly when
      the entries have the same device and inode numbers. */
  lemma FileIdWideSeparates(fs: FileSystem, p: Path, q: Path)
    requires p in fs.entries && q in fs.entries
    ensures FileIdWide(fs, p) == FileIdWide(fs, q) <==>
      fs.entries[p].dev == fs.entries[q].dev && fs.entries[p].ino == fs.entries[q].ino
  {
    var e, e' := fs.entries[p], fs.entries[q];
    RenderInjective(fs.caller, e.dev, e.ino, fs.caller, e'.dev, e'.ino);
  }

  /** While every file has one name, the corrected identifier tells names
      apart: two names get the same identifier exactly when they are the
      same name. */
  lemma FileIdWideIdentifies(fs: FileSystem, p: Path, q: Path)
    requires OneNamePerFile(fs) && p in fs.entries && q in fs.entries
    ensures FileIdWide(fs, p) == FileIdWide(fs, q) <==> p == q
  {
    FileIdWideSeparates(fs, p, q);
  }
}

=== FILE: fs_state.dfy ===
/**
 * The abstract filesystem on which the operations of file.c act: a map from
 * normalised path names to entries, the calling process's user id, and the
 * next inode number to hand out. The POSIX calls the source makes (`stat`,
 * `lstat`, `mkdir`, `fopen` for writing) become pure functions of this state.
 */
module FsState {
  import opened Wrappers
  import opened Paths

  type byte = x: int | 0 <= x < 0x100

  /** `uid_t`: a 32-bit unsigned user id. */
  type Uid = x: int | 0 <= x < 0x1_0000_0000

  /** `dev_t` and `ino_t`: 64-bit unsigned. */
  type Word64 = x: int | 0 <= x < 0x1_0000_0000_0000_0000

  /** The permission part of a mode, `st_mode & 07777`. */
  type Perm = x: int | 0 <= x < 0x1000

  /** What an entry is; regular files carry their bytes, symbolic links
      their target. */
  datatype Node =
    | Reg(data: seq<byte>)
    | Dir
    | Lnk(target: Path)
    | Fifo
    | Blk
    | Chr
    | Sock

  datatype Entry = Entry(node: Node, perm: Perm, uid: Uid, dev: Word64, ino: Word64)

  /** `caller` is the process's user id, taken to be both the real uid
      (`getuid()`) and the effective uid that permission checks use. */
  datatype FileSystem = FileSystem(entries: map<Path, Entry>, caller: Uid, nextIno: nat)

  /** C's conversion of an unsigned value to a 32-bit `int` on a
      two's-complement target: the low 32 bits, read as signed. */
  function ToInt32(x: nat): (i: int)
    ensures -0x8000_0000 <= i < 0x8000_0000
    ensures i % 0x1_0000_0000 == x % 0x1_0000_0000
  {
    var low := x % 0x1_0000_0000;
    if low < 0x8000_0000 then low else low - 0x1_0000_0000
  }

  /** Linux gives up with ELOOP after following this many symbolic links. */
  const MaxSymlinks: nat := 40

  /** The name a following lookup of `p` ends at: `p` itself unless it is a
      symbolic link, whose target is then looked up in turn. `None` means
      the link chain was too long (ELOOP). */
  function Resolve(fs: FileSystem, p: Path, hops: nat): (r: Option<Path>)
    decreases hops
    ensures r.Some? && r.value in fs.entries ==> !fs.entries[r.value].node.Lnk?
    ensures r.Some? && p in fs.entries && !fs.entries[p].node.Lnk? ==> r.value == p
  {
    if p !in fs.entries then Some(p)
    else match fs.entries[p].node
      case Lnk(t) => if hops == 0 then None else Resolve(fs, t, hops - 1)
      case _ => Some(p)
  }

  function Target(fs: FileSystem, p: Path): Option<Path> {
    Resolve(fs, p, MaxSymlinks)
  }

  /** `stat`: the metadata of the entry `p` resolves to, or failure. It
      never reports a link, and it reports an entry that is not a link as
      it is. */
  function Stat(fs: FileSystem, p: Path): (r: Option<Entry>)
    ensures r.Some? ==> !r.value.node.Lnk?
    ensures r.Some? <==> Target(fs, p).Some? && Target(fs, p).value in fs.entries
    ensures p in fs.entries && !fs.entries[p].node.Lnk? ==> r == Some(fs.entries[p])
    ensures p !in fs.entries ==> r.None?
  {
    match Target(fs, p)
    case None => None
    case Some(q) => if q in fs.entries then Some(fs.entries[q]) else None
  }

  /** `lstat`: the metadata of `p` itself, links not followed. A name that
      fails `lstat` fails `stat` too, and on anything but a link the two
      agree. */
  function LStat(fs: FileSystem, p: Path): (r: Option<Entry>)
    ensures r.None? ==> Stat(fs, p).None?
    ensures r.Some? && !r.value.node.Lnk? ==> Stat(fs, p) == r
  {
    if p in fs.entries then Some(fs.entries[p]) else None
  }

  /** Every file has one name: no two names share a device and inode
      number, and every inode number is below the next one handed out.
      Hard links are outside the model; this invariant says so, and every
      operation that changes the state keeps it. */
  predicate OneNamePerFile(fs: FileSystem) {
    && (forall k :: k in fs.entries ==> fs.entries[k].ino < fs.nextIno)
    && (forall k, k' :: k in fs.entries && k' in fs.entries && k != k' ==>
          fs.entries[k].dev != fs.entries[k'].dev || fs.entries[k].ino != fs.entries[k'].ino)
  }

  /** Changing what entries hold, but not their names, device or inode
      numbers, keeps the invariant. */
  lemma SameIdentities(fs: FileSystem, fs': FileSystem)
    requires fs'.entries.Keys == fs.entries.Keys && fs.nextIno <= fs'.nextIno
    requires forall k :: k in fs.entries ==> fs'.entries[k].dev == fs.entries[k].dev && fs'.entries[k].ino == fs.entries[k].ino
    ensures OneNamePerFile(fs) ==> OneNamePerFile(fs')
  {
  }

  /** Resolution survives a change confined to the entry it ends at, as
      long as that entry does not become a link. */
  lemma {:induction false} ResolveStable(fs: FileSystem, fs': FileSystem, p: Path, hops: nat, q: Path)
    requires Resolve(fs, p, hops) == Some(q)
    requires forall k :: k in fs.entries && k != q ==> k in fs'.entries && fs'.entries[k] == fs.entries[k]
    requires q in fs'.entries ==> !fs'.entries[q].node.Lnk?
    ensures Resolve(fs', p, hops) == Some(q)
    decreases hops
  {
    if p in fs.entries && fs.entries[p].node.Lnk? {
      assert p != q;
      ResolveStable(fs, fs', fs.entries[p].node.target, hops - 1, q);
    }
  }

  // ---------------------------------------------------------------------
  // st_mode: the file-type bits above the permission bits

  /** The `S_IF*` value of each kind of entry, shifted right by 12:
      S_IFIFO 0010000, S_IFCHR 0020000, S_IFDIR 0040000, S_IFBLK 0060000,
      S_IFREG 0100000, S_IFLNK 0120000, S_IFSOCK 0140000. */
  function TypeCode(n: Node): nat {
    match n
    case Fifo => 0x1
    case Chr => 0x2
    case Dir => 0x4
    case Blk => 0x6
    case Reg(_) => 0x8
    case Lnk(_) => 0xA
    case Sock => 0xC
  }

  /** The `st_mode` word `stat` reports for an entry. */
  function StMode(e: Entry): nat {
    TypeCode(e.node) * 0x1000 + e.perm
  }

  /** `(m & S_IFMT) >> 12`. */
  function FormatOf(m: nat): nat {
    (m / 0x1000) % 0x10
  }

  /** `m & 07777`, the part of a mode `chmod` keeps. */
  function PermOf(m: nat): nat {
    m % 0x1000
  }

  /** `m & S_IXUSR` is non-zero. */
  predicate OwnerExec(m: nat) {
    (m / 0x40) % 2 == 1
  }

  /** Decoding an `st_mode` recovers the kind and the permission bits. */
  lemma StModeFields(e: Entry)
    ensures FormatOf(StMode(e)) == TypeCode(e.node)
    ensures PermOf(StMode(e)) == e.perm
    ensures OwnerExec(StMode(e)) <==> OwnerExec(e.perm)
  {
    var c := TypeCode(e.node);
    assert StMode(e) / 0x1000 == c;
    assert StMode(e) / 0x40 == c * 0x40 + e.perm / 0x40;
  }

  // ---------------------------------------------------------------------
  // Permissions: owner bits for the owner, "other" bits for everyone else,
  // and no check at all for root.

  datatype Access = Read | Write | Search

  /** The bit of a mode that grants `a`: in the owner triple for the owner,
      in the "other" triple for everyone else. */
  predicate ModeGrants(perm: Perm, owner: bool, a: Access) {
    match a
    case Read => if owner then (perm / 0x100) % 2 == 1 else (perm / 4) % 2 == 1
    case Write => if owner then (perm / 0x80) % 2 == 1 else (perm / 2) % 2 == 1
    case Search => if owner then (perm / 0x40) % 2 == 1 else perm % 2 == 1
  }

  predicate Permits(fs: FileSystem, e: Entry, a: Access) {
    || fs.caller == 0
    || ModeGrants(e.perm, e.uid == fs.caller, a)
  }

  /** Permission bits and the set-id bits of a mode. */
  const SetUid: nat := 0x800
  const SetGid: nat := 0x400
  const GroupExec: nat := 0x8

  /** What Linux leaves of a regular file's mode when an unprivileged
      caller truncates or writes it: S_ISUID goes, and S_ISGID goes when
      S_IXGRP is set; every other bit stays. */
  function DropSetId(perm: Perm): (r: Perm)
    ensures (r / SetUid) % 2 == 0
    ensures r % SetGid == perm % SetGid && r % 0x200 == perm % 0x200
    ensures (r / SetGid) % 2 == 1 <==> (perm / SetGid) % 2 == 1 && (perm / GroupExec) % 2 == 0
  {
    var low := perm % SetGid;
    SetIdSplit(perm);
    if (perm / SetGid) % 2 == 1 && (low / GroupExec) % 2 == 0 then SetGid + low else low
  }

  /** A mode below S_ISUID, with or without S_ISGID, splits into S_ISGID
      and the bits below it. */
  lemma SetIdSplit(perm: Perm)
    ensures var low := perm % 0x400;
      && (low / 8) % 2 == (perm / 8) % 2
      && low / 0x800 == 0 && low / 0x400 == 0 && low % 0x400 == low && low % 0x200 == perm % 0x200
      && (0x400 + low) / 0x800 == 0 && (0x400 + low) / 0x400 == 1
      && (0x400 + low) % 0x400 == low && (0x400 + low) % 0x200 == perm % 0x200
  {
    var low := perm % 0x400;
    var a, b := low / 0x200, low % 0x200;
    DivUnique(perm, 0x200, 2 * (perm / 0x400) + a, b);
    DivUnique(low, 0x200, a, b);
    DivUnique(0x400 + low, 0x200, 2 + a, b);
    DivUnique(low, 0x800, 0, low);
    DivUnique(low, 0x400, 0, low);
    DivUnique(0x400 + low, 0x800, 0, 0x400 + low);
    DivUnique(0x400 + low, 0x400, 1, low);
    BitBelow(perm, 8, 0x80);
  }

  /** The mode a regular file keeps after `caller` truncates or writes it:
      root (CAP_FSETID) keeps every bit, anyone else loses the set-id bits
      as `DropSetId` says. */
  function ModeAfterWrite(fs: FileSystem, perm: Perm): Perm {
    if fs.caller == 0 then perm else DropSetId(perm)
  }

  /** Dropping the set-id bits once is enough. */
  lemma ModeAfterWriteIdempotent(fs: FileSystem, perm: Perm)
    ensures ModeAfterWrite(fs, ModeAfterWrite(fs, perm)) == ModeAfterWrite(fs, perm)
    ensures ModeAfterWrite(fs, perm) % 0x200 == perm % 0x200
  {
  }

  /** Access checks look at the low nine bits only, so dropping set-id bits
      never changes what the caller may do. */
  lemma PermitsLowBits(fs: FileSystem, e: Entry, perm: Perm, a: Access)
    requires perm % 0x200 == e.perm % 0x200
    ensures Permits(fs, e.(perm := perm), a) <==> Permits(fs, e, a)
  {
    LowBits(perm);
    LowBits(e.perm);
  }

  /** Rewriting an entry while keeping its owner and its low nine mode
      bits changes no access the caller has to it. */
  lemma AccessKept(fs: FileSystem, e: Entry, e': Entry)
    requires e'.uid == e.uid && e'.perm % 0x200 == e.perm % 0x200
    ensures forall a :: Permits(fs, e', a) <==> Permits(fs, e, a)
  {
    forall a
      ensures Permits(fs, e', a) <==> Permits(fs, e, a)
    {
      PermitsLowBits(fs, e, e'.perm, a);
    }
  }

  /** Every bit among the low nine depends on the low nine bits only. */
  lemma LowBits(x: nat)
    ensures var r := x % 0x200;
      && x % 2 == r % 2 && (x / 2) % 2 == (r / 2) % 2 && (x / 4) % 2 == (r / 4) % 2
      && (x / 0x40) % 2 == (r / 0x40) % 2 && (x / 0x80) % 2 == (r / 0x80) % 2
      && (x / 0x100) % 2 == (r / 0x100) % 2
  {
    BitBelow(x, 1, 0x200);
    BitBelow(x, 2, 0x100);
    BitBelow(x, 4, 0x80);
    BitBelow(x, 0x40, 8);
    BitBelow(x, 0x80, 4);
    BitBelow(x, 0x100, 2);
  }

  /** Bit `k` of `x` depends only on `x` modulo any even multiple of `k`. */
  lemma BitBelow(x: nat, k: nat, m: nat)
    requires k > 0 && m > 0 && m % 2 == 0
    ensures (x / k) % 2 == ((x % (k * m)) / k) % 2
  {
    var km := k * m;
    MulAtLeast(k, m);
    var q, r := x / km, x % km;
    var h := m / 2;
    var t := r / k;
    assert x == k * (2 * (h * q)) + r by {
      assert x == km * q + r;
      assert km * q == k * (m * q);
      assert m * q == 2 * (h * q);
    }
    DivAdd(x, k, 2 * (h * q), r);
    DivUnique(2 * (h * q) + t, 2, h * q + t / 2, t % 2);
  }

  /** Dividing a multiple of `k` plus a remainder. */
  lemma DivAdd(x: int, k: nat, a: int, r: nat)
    requires k > 0 && x == k * a + r
    ensures x / k == a + r / k
  {
    var t, s := r / k, r % k;
    assert r == k * t + s;
    assert x == k * (a + t) + s;
    DivUnique(x, k, a + t, s);
  }

  /** Quotient and remainder are unique. */
  lemma DivUnique(x: int, k: nat, q: int, r: int)
    requires k > 0 && 0 <= r < k && x == k * q + r
    ensures x / k == q && x % k == r
  {
    var q', r' := x / k, x % k;
    assert k * q' + r' == k * q + r;
    if q' < q {
      assert k * (q - q') == k * q - k * q';
      MulAtLeast(k, q - q');
    } else if q < q' {
      assert k * (q' - q) == k * q' - k * q;
      MulAtLeast(k, q' - q);
    }
  }

  /** A positive multiple of `k` is at least `k`. */
  lemma MulAtLeast(k: nat, d: int)
    requires d >= 1
    ensures k * d >= k
  {
    var e := d - 1;
    assert k * d == k * e + k;
    assert k * e >= 0;
  }

  // ---------------------------------------------------------------------
  // Creating entries

  /** A new entry may be made at `p`: nothing is there yet, the parent is a
      directory the caller may write and search, and an inode is left. */
  predicate CanCreate(fs: FileSystem, p: Path) {
    && p !in fs.entries
    && Stat(fs, Dirname(p)).Some?
    && Stat(fs, Dirname(p)).value.node.Dir?
    && Permits(fs, Stat(fs, Dirname(p)).value, Write)
    && Permits(fs, Stat(fs, Dirname(p)).value, Search)
    && fs.nextIno < 0x1_0000_0000_0000_0000
  }

  /** Adds an entry owned by the caller, on its parent's device, with the
      next inode number. */
  function Create(fs: FileSystem, p: Path, node: Node, perm: Perm): (fs': FileSystem)
    requires CanCreate(fs, p)
    ensures fs'.entries.Keys == fs.entries.Keys + {p}
    ensures forall k :: k in fs.entries ==> fs'.entries[k] == fs.entries[k]
    ensures fs'.entries[p].node == node && fs'.entries[p].perm == perm
    ensures fs'.entries[p].uid == fs.caller && fs'.entries[p].ino == fs.nextIno
    ensures fs'.caller == fs.caller && fs'.nextIno == fs.nextIno + 1
  {
    var parent := Stat(fs, Dirname(p)).value;
    fs.(entries := fs.entries[p := Entry(node, perm, fs.caller, parent.dev, fs.nextIno)],
        nextIno := fs.nextIno + 1)
  }

  /** `mkdir(p, mode)`: fails (-1, state unchanged) when anything, even a
      dangling link, is already at `p`, or the parent does not admit a new
      entry; otherwise adds a directory with `mode & 01777`: the
      permission bits and the sticky bit. */
  function Mkdir(fs: FileSystem, p: Path, mode: nat): (res: (int, FileSystem))
    ensures res.0 == 0 || res.0 == -1
    ensures res.0 == 0 <==> CanCreate(fs, p)
    ensures res.0 == -1 ==> res.1 == fs
    ensures res.0 == 0 ==> res.1 == Create(fs, p, Dir, mode % 0x400)
  {
    if p in fs.entries then (-1, fs)
    else match Stat(fs, Dirname(p))
      case None => (-1, fs)
      case Some(parent) =>
        if !parent.node.Dir? then (-1, fs)
        else if !Permits(fs, parent, Write) || !Permits(fs, parent, Search) then (-1, fs)
        else if fs.nextIno >= 0x1_0000_0000_0000_0000 then (-1, fs)
        else (0, Create(fs, p, Dir, mode % 0x400))
  }

  // ---------------------------------------------------------------------
  // Opening for writing

  /** The state after a successful open, and the name of the entry the
      stream writes to. */
  datatype Opened = Opened(fs: FileSystem, at: Path) | OpenFailed

  /** `fopen(p, "w")` can succeed: the lookup ends, without a link loop,
      either at an existing entry that is neither a directory nor a socket
      (which Linux refuses with ENXIO) and that the caller may write, or at
      a missing name that a new file may take. */
  predicate OpensForWriting(fs: FileSystem, p: Path) {
    && Target(fs, p).Some?
    && var q := Target(fs, p).value;
       if q in fs.entries then !fs.entries[q].node.Dir? && !fs.entries[q].node.Sock? && Permits(fs, fs.entries[q], Write)
       else CanCreate(fs, q)
  }

  /** `fopen(p, "w")`: follows links; refuses a loop, a directory, a
      socket, or an entry the caller may not write; truncates a regular
      file, whose set-id bits go as `ModeAfterWrite` says; creates a
      missing one with mode 0666; leaves a special file as it is. */
  function OpenTrunc(fs: FileSystem, p: Path): (o: Opened)
    ensures o.Opened? <==> OpensForWriting(fs, p)
    ensures o.Opened? ==> Target(fs, p) == Some(o.at)
    ensures o.Opened? ==> o.fs.caller == fs.caller
    ensures o.Opened? ==> o.fs.nextIno == if o.at in fs.entries then fs.nextIno else fs.nextIno + 1
    ensures o.Opened? ==> o.fs.entries.Keys == fs.entries.Keys + {o.at}
    ensures o.Opened? ==> forall k :: k in fs.entries && k != o.at ==> o.fs.entries[k] == fs.entries[k]
    ensures o.Opened? && o.at in fs.entries ==>
      var e := fs.entries[o.at];
      && !e.node.Dir? && !e.node.Sock? && Permits(fs, e, Write)
      && o.fs.entries[o.at] == if e.node.Reg? then e.(node := Reg([]), perm := ModeAfterWrite(fs, e.perm)) else e
    ensures o.Opened? && o.at !in fs.entries ==>
      o.fs.entries[o.at].node == Reg([]) && o.fs.entries[o.at].perm == 0x1B6 && o.fs.entries[o.at].uid == fs.caller
    ensures o.Opened? && o.at in fs.entries ==>
      forall a :: Permits(o.fs, o.fs.entries[o.at], a) <==> Permits(fs, fs.entries[o.at], a)
  {
    match Target(fs, p)
    case None => OpenFailed
    case Some(q) =>
      if q in fs.entries then
        var e := fs.entries[q];
        if e.node.Dir? || e.node.Sock? || !Permits(fs, e, Write) then OpenFailed
        else if e.node.Reg? then
          var e' := e.(node := Reg([]), perm := ModeAfterWrite(fs, e.perm));
          ModeAfterWriteIdempotent(fs, e.perm);
          AccessKept(fs, e, e');
          Opened(fs.(entries := fs.entries[q := e']), q)
        else Opened(fs, q)
      else if CanCreate(fs, q) then Opened(Create(fs, q, Reg([]), 0x1B6), q)
      else OpenFailed
  }

  // ---------------------------------------------------------------------
  // Every call that changes the state keeps `OneNamePerFile`

  /** A new entry takes the next inode number, which no name holds yet. */
  lemma CreateKeepsOneName(fs: FileSystem, p: Path, node: Node, perm: Perm)
    requires CanCreate(fs, p) && OneNamePerFile(fs)
    ensures OneNamePerFile(Create(fs, p, node, perm))
  {
  }

  lemma MkdirKeepsOneName(fs: FileSystem, p: Path, mode: nat)
    requires OneNamePerFile(fs)
    ensures OneNamePerFile(Mkdir(fs, p, mode).1)
  {
    if CanCreate(fs, p) {
      CreateKeepsOneName(fs, p, Dir, mode % 0x400);
    }
  }

  lemma OpenTruncKeepsOneName(fs: FileSystem, p: Path)
    requires OneNamePerFile(fs) && OpenTrunc(fs, p).Opened?
    ensures OneNamePerFile(OpenTrunc(fs, p).fs)
  {
    var q := Target(fs, p).value;
    if q in fs.entries {
      SameIdentities(fs, OpenTrunc(fs, p).fs);
    } else {
      CreateKeepsOneName(fs, q, Reg([]), 0x1B6);
    }
  }
}

=== FILE: mkpath.dfy ===
/**
 * `s_mkpath(dir, mode)`: makes `dir` a directory by first making its parent
 * one, recursively, then calling `mkdir`. It stops at `NULL` (failure), at
 * the root "/" and at any path that already is a directory (success), and
 * gives up at the first `mkdir` that fails, leaving whatever it already
 * created in place.
 *
 * The recursion follows `dirname`, whose fixed point "." is reached by every
 * relative path: there the call stops only if "." is a directory, and
 * otherwise calls itself on "." again and again. The recursive call is not
 * a tail call (its result is tested and `mkdir` follows) and every frame
 * holds a `strdupa` copy, so this ends in a stack overflow that kills the
 * process; the call never returns. The model makes that outcome explicit
 * (`Diverges`) instead of assuming termination.
 */
module MkPath {
  import opened Wrappers
  import opened Paths
  import opened FsState
  import opened Classify

  /** `strlength(s, 2)`: the length of `s`, counted no further than 2. */
  function StrLength(s: string, max: nat): nat {
    if |s| < max then |s| else max
  }

  /** `k` is a directory that a call on `d` with `mode` created: it lies on
      `d`'s upward walk, is owned by the caller, has mode `mode & 01777`
      (permission and sticky bits), and got one of the inode numbers
      handed out meanwhile. */
  predicate CreatedDir(fs: FileSystem, fs': FileSystem, d: Path, mode: nat, k: Path)
    requires k in fs'.entries
  {
    && k in Lineage(d)
    && fs'.entries[k].node == Dir
    && fs'.entries[k].perm == mode % 0x400
    && fs'.entries[k].uid == fs.caller
    && fs.nextIno <= fs'.entries[k].ino < fs'.nextIno
  }

  /** What a call on `d` may do to the state: keep every existing entry as
      it was and add only directories from `d`'s upward walk, each one after
      its parent whenever both are new. */
  predicate Grows(fs: FileSystem, fs': FileSystem, d: Path, mode: nat) {
    && fs'.caller == fs.caller
    && fs.nextIno <= fs'.nextIno
    && (forall k :: k in fs.entries ==> k in fs'.entries && fs'.entries[k] == fs.entries[k])
    && (forall k :: k in fs'.entries && k !in fs.entries ==> CreatedDir(fs, fs', d, mode, k))
    && (forall k :: k in fs'.entries && k !in fs.entries && Dirname(k) in fs'.entries && Dirname(k) !in fs.entries ==>
          fs'.entries[Dirname(k)].ino < fs'.entries[k].ino)
  }

  /** The recursion of `s_mkpath` on a non-NULL path. */
  function MkTree(fs: FileSystem, d: Path, mode: nat): (o: Outcome<(int, FileSystem)>)
    decreases Rank(d)
    ensures o.Returns? ==> o.value.0 == 0 || o.value.0 == -1
    ensures o.Returns? ==> Grows(fs, o.value.1, d, mode)
    ensures o.Returns? && o.value.0 == 0 ==> d == "/" || IsDir(o.value.1, d) == 0
    ensures o.Returns? && o.value.0 == -1 ==> (d in o.value.1.entries <==> d in fs.entries)
  {
    if StrLength(d, 2) == 1 && d[0] == '/' then Returns((0, fs))
    else if IsDir(fs, d) == 0 then Returns((0, fs))
    else if d == "." then Diverges
    else
      match MkTree(fs, Dirname(d), mode)
      case Diverges => Diverges
      case Returns((r, fs1)) =>
        if r < 0 then
          ParentFailure(fs, fs1, d, mode);
          Returns((-1, fs1))
        else
          var fs2 := Mkdir(fs1, d, mode);
          GrowsStep(fs, fs1, fs2, d, mode);
          Returns(fs2)
  }

  /** When the parent's call fails, `d` itself is as it was. */
  lemma ParentFailure(fs: FileSystem, fs1: FileSystem, d: Path, mode: nat)
    requires d != "/" && d != "."
    requires Grows(fs, fs1, Dirname(d), mode)
    ensures Grows(fs, fs1, d, mode)
    ensures d in fs1.entries <==> d in fs.entries
  {
    NotInOwnParentLineage(d);
    assert Lineage(d) == [d] + Lineage(Dirname(d));
  }

  /** One more `mkdir` of `d` after its parent's call keeps `Grows`. */
  lemma GrowsStep(fs: FileSystem, fs1: FileSystem, fs2: (int, FileSystem), d: Path, mode: nat)
    requires d != "/" && d != "."
    requires Grows(fs, fs1, Dirname(d), mode)
    requires fs2 == Mkdir(fs1, d, mode)
    ensures fs2.0 == 0 || fs2.0 == -1
    ensures Grows(fs, fs2.1, d, mode)
    ensures fs2.0 == 0 ==> IsDir(fs2.1, d) == 0
    ensures fs2.0 == -1 ==> (d in fs2.1.entries <==> d in fs.entries)
  {
    if fs2.0 == 0 {
      CreatedGrows(fs, fs1, d, mode);
      MkdirMakesDir(fs1, d, mode);
    } else {
      ParentFailure(fs, fs1, d, mode);
    }
  }

  lemma MkdirMakesDir(fs: FileSystem, d: Path, mode: nat)
    requires CanCreate(fs, d)
    ensures IsDir(Create(fs, d, Dir, mode % 0x400), d) == 0
  {
    var n := Create(fs, d, Dir, mode % 0x400);
    assert Target(n, d) == Some(d);
  }

  lemma CreatedGrows(fs: FileSystem, fs1: FileSystem, d: Path, mode: nat)
    requires d != "/" && d != "."
    requires Grows(fs, fs1, Dirname(d), mode)
    requires CanCreate(fs1, d)
    ensures Grows(fs, Create(fs1, d, Dir, mode % 0x400), d, mode)
  {
    NotInOwnParentLineage(d);
    assert Lineage(d) == [d] + Lineage(Dirname(d));
    var n := Create(fs1, d, Dir, mode % 0x400);
    forall k | k in n.entries && k !in fs.entries
      ensures CreatedDir(fs, n, d, mode, k)
    {
      if k != d {
        assert CreatedDir(fs, fs1, Dirname(d), mode, k);
      }
    }
    forall k | k in n.entries && k !in fs.entries && Dirname(k) in n.entries && Dirname(k) !in fs.entries
      ensures n.entries[Dirname(k)].ino < n.entries[k].ino
    {
      if k != d {
        assert CreatedDir(fs, fs1, Dirname(d), mode, k);
        assert Dirname(k) != d by {
          assert Rank(k) <= Rank(Dirname(d)) < Rank(d);
        }
      } else {
        assert CreatedDir(fs, fs1, Dirname(d), mode, Dirname(d));
      }
    }
  }

  /** `s_mkpath(dir, mode)`; `None` stands for a NULL `dir`. */
  function MkPath(fs: FileSystem, dir: Option<Path>, mode: nat): (o: Outcome<(int, FileSystem)>)
    ensures dir.None? ==> o == Returns((-1, fs))
    ensures o.Returns? ==> o.value.0 == 0 || o.value.0 == -1
    ensures o.Returns? && dir.Some? ==> Grows(fs, o.value.1, dir.value, mode)
    ensures o.Returns? && o.value.0 == 0 ==> dir.Some? && (dir.value == "/" || IsDir(o.value.1, dir.value) == 0)
  {
    match dir
    case None => Returns((-1, fs))
    case Some(d) => MkTree(fs, d, mode)
  }

  /** The root and existing directories are left alone. */
  lemma MkPathExisting(fs: FileSystem, d: Path, mode: nat)
    requires d == "/" || IsDir(fs, d) == 0
    ensures MkPath(fs, Some(d), mode) == Returns((0, fs))
  {
  }

  /** Calling `s_mkpath` again after it succeeded changes nothing and
      succeeds again. */
  lemma MkPathIdempotent(fs: FileSystem, dir: Option<Path>, mode: nat)
    requires MkPath(fs, dir, mode).Returns? && MkPath(fs, dir, mode).value.0 == 0
    ensures MkPath(MkPath(fs, dir, mode).value.1, dir, mode) == MkPath(fs, dir, mode)
  {
  }

  /** The call never returns exactly when the path is relative and nothing
      on its upward walk, "." included, is a directory. */
  lemma {:induction false} MkTreeDiverges(fs: FileSystem, d: Path, mode: nat)
    ensures MkTree(fs, d, mode).Diverges? <==>
      !Absolute(d) && forall x :: x in Lineage(d) ==> IsDir(fs, x) != 0
    decreases Rank(d)
  {
    RootGuard(d);
    if d == "." {
      assert Lineage(d) == ["."];
    } else if d != "/" {
      LineageStep(d);
      if IsDir(fs, d) != 0 {
        MkTreeDivergesStep(fs, d, mode);
        MkTreeDiverges(fs, Dirname(d), mode);
      }
    }
  }

  /** The `strlength(dir, 2) == 1 && dir[0] == '/'` test recognises exactly
      the root. */
  lemma RootGuard(d: Path)
    ensures StrLength(d, 2) == 1 && d[0] == '/' <==> d == "/"
  {
    if |d| == 1 && d[0] == '/' {
      assert d == [d[0]];
    }
  }

  /** Past a missing `d`, the call diverges exactly when the call on the
      parent does. */
  lemma MkTreeDivergesStep(fs: FileSystem, d: Path, mode: nat)
    requires d != "/" && d != "." && IsDir(fs, d) != 0
    ensures MkTree(fs, d, mode).Diverges? <==> MkTree(fs, Dirname(d), mode).Diverges?
  {
    RootGuard(d);
  }

  /** So an absolute path, or any path while "." is a directory, always
      gets an answer. */
  lemma MkPathReturns(fs: FileSystem, d: Path, mode: nat)
    requires Absolute(d) || IsDir(fs, ".") == 0
    ensures MkPath(fs, Some(d), mode).Returns?
  {
    assert MkPath(fs, Some(d), mode) == MkTree(fs, d, mode);
    MkTreeDiverges(fs, d, mode);
    if !Absolute(d) {
      var l := Lineage(d);
      assert d != "/" && |l| > 0 && l[|l| - 1] == ".";
      assert "." in l;
    }
  }

  /** One level of the recursion: a missing `d` is made after its parent. */
  lemma MkTreeUnfold(fs: FileSystem, d: Path, mode: nat, fs1: FileSystem)
    requires d != "/" && d != "." && IsDir(fs, d) != 0
    requires MkTree(fs, Dirname(d), mode) == Returns((0, fs1))
    ensures MkTree(fs, d, mode) == Returns(Mkdir(fs1, d, mode))
  {
  }

  /** Directories made by `s_mkpath` get fresh inode numbers: no two names
      come to share a file. */
  lemma {:induction false} MkTreeKeepsOneName(fs: FileSystem, d: Path, mode: nat)
    requires OneNamePerFile(fs) && MkTree(fs, d, mode).Returns?
    ensures OneNamePerFile(MkTree(fs, d, mode).value.1)
    decreases Rank(d)
  {
    RootGuard(d);
    if d != "/" && IsDir(fs, d) != 0 && d != "." {
      MkTreeKeepsOneName(fs, Dirname(d), mode);
      var fs1 := MkTree(fs, Dirname(d), mode).value.1;
      MkdirKeepsOneName(fs1, d, mode);
    }
  }

  /** The partner of `MkTreeUnfold`: a -1 from the parent's call is passed
      straight up, and `mkdir` is not attempted. */
  lemma MkTreeParentFails(fs: FileSystem, d: Path, mode: nat, fs1: FileSystem)
    requires d != "/" && d != "." && IsDir(fs, d) != 0
    requires MkTree(fs, Dirname(d), mode) == Returns((-1, fs1))
    ensures MkTree(fs, d, mode) == Returns((-1, fs1))
  {
    RootGuard(d);
  }

  /** Everything a call on `d` has to make can be made: the caller is root,
      `d` is absolute, "/" is a directory, every name on `d`'s upward walk
      is a directory or missing (not a file, not a link), and inode numbers
      are left for each name of the walk. */
  predicate Buildable(fs: FileSystem, d: Path) {
    && fs.caller == 0
    && Absolute(d)
    && "/" in fs.entries && fs.entries["/"].node == Dir
    && (forall x :: x in Lineage(d) ==> x !in fs.entries || fs.entries[x].node == Dir)
    && fs.nextIno + |Lineage(d)| <= 0x1_0000_0000_0000_0000
  }

  /** In that situation `s_mkpath` succeeds, having used at most one inode
      number per name of the walk. */
  lemma {:induction false} MkTreeSucceeds(fs: FileSystem, d: Path, mode: nat) returns (fs': FileSystem)
    requires Buildable(fs, d)
    ensures MkTree(fs, d, mode) == Returns((0, fs'))
    ensures fs'.nextIno <= fs.nextIno + |Lineage(d)|
    decreases Rank(d)
  {
    RootGuard(d);
    if d == "/" || IsDir(fs, d) == 0 {
      fs' := fs;
    } else {
      BuildableParent(fs, d);
      var fs1 := MkTreeSucceeds(fs, Dirname(d), mode);
      MkTreeUnfold(fs, d, mode, fs1);
      BuildableStep(fs, fs1, d, mode);
      fs' := Mkdir(fs1, d, mode).1;
    }
  }

  /** A missing `d` whose walk is buildable has a buildable parent, with
      one name fewer on its walk. */
  lemma BuildableParent(fs: FileSystem, d: Path)
    requires Buildable(fs, d) && d != "/" && IsDir(fs, d) != 0
    ensures d != "." && d !in fs.entries
    ensures Buildable(fs, Dirname(d)) && |Lineage(Dirname(d))| + 1 == |Lineage(d)|
  {
    LineageStep(d);
    var l, lp := Lineage(d), Lineage(Dirname(d));
    assert d in l;
    forall x | x in lp
      ensures x !in fs.entries || fs.entries[x].node == Dir
    {
      assert x in l;
    }
    NotDirMissing(fs, d);
  }

  /** A name that is a directory entry or nothing, and fails `is_dir`, is
      nothing. */
  lemma NotDirMissing(fs: FileSystem, d: Path)
    requires d !in fs.entries || fs.entries[d].node == Dir
    requires IsDir(fs, d) != 0
    ensures d !in fs.entries
  {
  }

  /** Once the parent's call has succeeded, `mkdir` of `d` can succeed. */
  lemma BuildableStep(fs: FileSystem, fs1: FileSystem, d: Path, mode: nat)
    requires Buildable(fs, d) && d != "/" && d != "." && d !in fs.entries
    requires MkTree(fs, Dirname(d), mode) == Returns((0, fs1))
    requires fs1.nextIno < 0x1_0000_0000_0000_0000
    ensures CanCreate(fs1, d)
  {
    StillMissing(fs, fs1, d, mode);
    ParentReady(fs, fs1, Dirname(d), mode);
  }

  /** The parent's call never makes `d` itself. */
  lemma StillMissing(fs: FileSystem, fs1: FileSystem, d: Path, mode: nat)
    requires d != "/" && d != "." && d !in fs.entries
    requires MkTree(fs, Dirname(d), mode).Returns? && MkTree(fs, Dirname(d), mode).value.1 == fs1
    ensures d !in fs1.entries
  {
    NotInOwnParentLineage(d);
  }

  /** After a successful call on `p`, under a root directory kept from
      `fs`, `p` is a directory, and the caller is unchanged. */
  lemma ParentReady(fs: FileSystem, fs1: FileSystem, p: Path, mode: nat)
    requires "/" in fs.entries && fs.entries["/"].node == Dir
    requires MkTree(fs, p, mode) == Returns((0, fs1))
    ensures Stat(fs1, p).Some? && Stat(fs1, p).value.node.Dir? && fs1.caller == fs.caller
  {
    if p == "/" {
      assert fs1.entries["/"] == fs.entries["/"];
    }
  }

  /** A state holding only "/" and a world-writable "/tmp", seen by user 1000. */
  function TmpOnly(): FileSystem {
    FileSystem(map["/" := Entry(Dir, 0x1ED, 0, 1, 2), "/tmp" := Entry(Dir, 0x3FF, 0, 1, 3)], 1000, 10)
  }

  /** The names the scenarios below use, and their parents. */
  lemma TmpNames()
    ensures Normal("/tmp") && Normal("/tmp/a") && Normal("/tmp/a/b") && Normal("/tmp/a/b/c")
    ensures Dirname("/tmp/a") == "/tmp" && Dirname("/tmp/a/b") == "/tmp/a" && Dirname("/tmp/a/b/c") == "/tmp/a/b"
  {
    TmpUpperNames();
    DirnameOfChild("/tmp/a", "b");
    assert "/tmp/a" + "/" + "b" == "/tmp/a/b";
    DirnameOfChild("/tmp/a/b", "c");
    assert "/tmp/a/b" + "/" + "c" == "/tmp/a/b/c";
  }

  lemma TmpUpperNames()
    ensures Normal("/tmp") && Normal("/tmp/a") && Dirname("/tmp/a") == "/tmp"
  {
    DirnameOfRootChild("tmp");
    assert "/" + "tmp" == "/tmp";
    DirnameOfChild("/tmp", "a");
    assert "/tmp" + "/" + "a" == "/tmp/a";
  }

  /** Making "/tmp/a/b/c" on `TmpOnly()`, with a mode that lets the owner
      write and search what it creates (0755, say), succeeds and creates
      "/tmp/a", "/tmp/a/b" and "/tmp/a/b/c", in that order. */
  lemma MkPathScenario(mode: nat)
    requires ((mode % 0x400) / 0x40 / 2) % 2 == 1 && ((mode % 0x400) / 0x40) % 2 == 1
    ensures var o := MkPath(TmpOnly(), Some("/tmp/a/b/c"), mode);
      && o.Returns? && o.value.0 == 0
      && o.value.1.entries.Keys == TmpOnly().entries.Keys + {"/tmp/a", "/tmp/a/b", "/tmp/a/b/c"}
      && o.value.1.entries["/tmp/a"].ino == 10
      && o.value.1.entries["/tmp/a/b"].ino == 11
      && o.value.1.entries["/tmp/a/b/c"].ino == 12
  {
    TmpNames();
    var fs3 := MkPathScenarioAt(TmpOnly(), "/tmp/a", "/tmp/a/b", "/tmp/a/b/c", mode);
  }

  /** The scenario above with the names bound to variables, which keeps the
      solver from evaluating the recursion on the literals. */
  lemma MkPathScenarioAt(fs: FileSystem, a: Path, b: Path, c: Path, mode: nat) returns (fs3: FileSystem)
    requires fs == TmpOnly() && a == "/tmp/a" && b == "/tmp/a/b" && c == "/tmp/a/b/c"
    requires ((mode % 0x400) / 0x40 / 2) % 2 == 1 && ((mode % 0x400) / 0x40) % 2 == 1
    ensures MkPath(fs, Some(c), mode) == Returns((0, fs3))
    ensures fs3.entries.Keys == fs.entries.Keys + {a, b, c}
    ensures fs3.entries[a].ino == 10 && fs3.entries[b].ino == 11 && fs3.entries[c].ino == 12
  {
    var fs2 := TmpSecondStep(fs, a, b, mode);
    TmpNames();
    fs3 := TreeStep(fs, fs2, c, mode);
  }

  /** The second `mkdir` of the scenario: "/tmp/a/b" in the new "/tmp/a". */
  lemma TmpSecondStep(fs: FileSystem, a: Path, b: Path, mode: nat) returns (fs2: FileSystem)
    requires fs == TmpOnly() && a == "/tmp/a" && b == "/tmp/a/b"
    requires ((mode % 0x400) / 0x40 / 2) % 2 == 1 && ((mode % 0x400) / 0x40) % 2 == 1
    ensures MkTree(fs, b, mode) == Returns((0, fs2))
    ensures fs2.entries.Keys == fs.entries.Keys + {a, b}
    ensures fs2.entries[a].ino == 10
    ensures fs2.entries[b] == Entry(Dir, mode % 0x400, 1000, 1, 11)
    ensures fs2.caller == 1000 && fs2.nextIno == 12
  {
    var fs1 := TmpFirstStep(fs, a, mode);
    TmpNames();
    assert Dirname(b) == a && b != a;
    assert b !in fs.entries.Keys && b !in fs1.entries.Keys;
    fs2 := TreeStep(fs, fs1, b, mode);
  }

  /** The first `mkdir` of the scenarios: "/tmp/a" in the world-writable
      "/tmp". */
  lemma TmpFirstStep(fs: FileSystem, a: Path, mode: nat) returns (fs1: FileSystem)
    requires fs == TmpOnly() && a == "/tmp/a"
    ensures MkTree(fs, a, mode) == Returns((0, fs1))
    ensures fs1.entries.Keys == fs.entries.Keys + {a}
    ensures fs1.entries[a] == Entry(Dir, mode % 0x400, 1000, 1, 10)
    ensures forall k :: k in fs.entries ==> fs1.entries[k] == fs.entries[k]
    ensures fs1.caller == 1000 && fs1.nextIno == 11
  {
    TmpNames();
    assert Stat(fs, "/tmp") == Some(fs.entries["/tmp"]);
    MissingFailsAll(fs, a, 0);
    fs1 := MkdirStep(fs, a, "/tmp", mode);
    MkTreeUnfold(fs, a, mode, fs);
  }

  /** One more level of the recursion, below a directory the call made and
      its owner may write into and search. */
  lemma TreeStep(fs: FileSystem, fs1: FileSystem, d: Path, mode: nat) returns (fs2: FileSystem)
    requires d != "/" && d != "." && d !in fs.entries && d !in fs1.entries
    requires MkTree(fs, Dirname(d), mode) == Returns((0, fs1))
    requires Dirname(d) in fs1.entries && fs1.entries[Dirname(d)].node.Dir?
    requires fs1.entries[Dirname(d)].uid == fs1.caller && fs1.entries[Dirname(d)].perm == mode % 0x400
    requires ((mode % 0x400) / 0x40 / 2) % 2 == 1 && ((mode % 0x400) / 0x40) % 2 == 1
    requires fs1.nextIno < 0x1_0000_0000_0000_0000
    ensures MkTree(fs, d, mode) == Returns((0, fs2))
    ensures fs2.entries.Keys == fs1.entries.Keys + {d}
    ensures fs2.entries[d] == Entry(Dir, mode % 0x400, fs1.caller, fs1.entries[Dirname(d)].dev, fs1.nextIno)
    ensures forall k :: k in fs1.entries ==> fs2.entries[k] == fs1.entries[k]
    ensures fs2.caller == fs1.caller && fs2.nextIno == fs1.nextIno + 1
  {
    MissingFailsAll(fs, d, 0);
    fs2 := MkdirStep(fs1, d, Dirname(d), mode);
    MkTreeUnfold(fs, d, mode, fs1);
  }

  /** A `mkdir` of `d` under the existing, caller-writable directory
      `parent`, for the scenarios. */
  lemma MkdirStep(fs: FileSystem, d: Path, parent: Path, mode: nat) returns (fs': FileSystem)
    requires d != "/" && d != "." && Dirname(d) == parent && d !in fs.entries
    requires parent in fs.entries && fs.entries[parent].node.Dir?
    requires Permits(fs, fs.entries[parent], Write) && Permits(fs, fs.entries[parent], Search)
    requires fs.nextIno < 0x1_0000_0000_0000_0000
    ensures Mkdir(fs, d, mode) == (0, fs')
    ensures fs'.entries.Keys == fs.entries.Keys + {d}
    ensures fs'.entries[d] == Entry(Dir, mode % 0x400, fs.caller, fs.entries[parent].dev, fs.nextIno)
    ensures forall k :: k in fs.entries ==> fs'.entries[k] == fs.entries[k]
    ensures fs'.caller == fs.caller && fs'.nextIno == fs.nextIno + 1
  {
    assert Stat(fs, parent) == Some(fs.entries[parent]);
    fs' := Create(fs, d, Dir, mode % 0x400);
  }

  /** With a mode that does not let the owner write into what it creates
      (0555, say), the second `mkdir` fails: the result is -1 and "/tmp/a"
      stays behind. */
  lemma MkPathPartialFailure(mode: nat)
    requires ((mode % 0x400) / 0x40 / 2) % 2 == 0
    ensures var o := MkPath(TmpOnly(), Some("/tmp/a/b"), mode);
      && o.Returns? && o.value.0 == -1
      && o.value.1.entries.Keys == TmpOnly().entries.Keys + {"/tmp/a"}
      && IsDir(o.value.1, "/tmp/a") == 0
  {
    TmpNames();
    var fs1 := MkPathPartialFailureAt(TmpOnly(), "/tmp/a", "/tmp/a/b", mode);
  }

  lemma MkPathPartialFailureAt(fs: FileSystem, a: Path, b: Path, mode: nat) returns (fs1: FileSystem)
    requires fs == TmpOnly() && a == "/tmp/a" && b == "/tmp/a/b"
    requires ((mode % 0x400) / 0x40 / 2) % 2 == 0
    ensures MkPath(fs, Some(b), mode) == Returns((-1, fs1))
    ensures fs1.entries.Keys == fs.entries.Keys + {a}
    ensures IsDir(fs1, a) == 0
  {
    TmpNames();
    fs1 := TmpFirstStep(fs, a, mode);
    MissingFailsAll(fs, b, 0);
    LockedParent(fs1, a, b, mode);
    MkTreeUnfold(fs, b, mode, fs1);
  }

  /** `mkdir` under a directory its owner may not write into fails. */
  lemma LockedParent(fs: FileSystem, a: Path, b: Path, mode: nat)
    requires b != "/" && Dirname(b) == a && a in fs.entries
    requires fs.entries[a].node == Dir && fs.entries[a].uid == fs.caller != 0
    requires fs.entries[a].perm == mode % 0x400 && ((mode % 0x400) / 0x40 / 2) % 2 == 0
    ensures Mkdir(fs, b, mode) == (-1, fs)
  {
    assert Stat(fs, a) == Some(fs.entries[a]);
    assert !Permits(fs, fs.entries[a], Write);
  }
}

=== FILE: paths.dfy ===
/**
 * Normalised path names and the POSIX `dirname` walk on which both ancestor
 * searches of file.c (`s_mkpath` and `container_basedir`) are built.
 *
 * A path is kept in normal form: non-empty, no two consecutive slashes, no
 * trailing slash unless the path is the root itself, and no "." or ".."
 * component unless the whole path is ".". On such paths `dirname` drops the
 * last component, maps a single relative component to "." and has exactly
 * two fixed points, "/" and ".".
 */
module Paths {

  /** A component "." or ".." starts at index `i` of `p`. */
  predicate DotComponentAt(p: string, i: int) {
    && 0 <= i < |p| && p[i] == '.' && (i == 0 || p[i - 1] == '/')
    && (|| i + 1 == |p| || p[i + 1] == '/'
        || (p[i + 1] == '.' && (i + 2 == |p| || p[i + 2] == '/')))
  }

  /** `p` has no "." or ".." component. */
  predicate NoDots(p: string) {
    forall i :: 0 <= i < |p| ==> !DotComponentAt(p, i)
  }

  /** Non-empty, no `//`, no trailing `/` except for the root "/", and no
      "." or ".." component except for "." itself. */
  predicate Normal(p: string) {
    && |p| > 0
    && (p == "/" || p[|p| - 1] != '/')
    && (forall i :: 0 <= i < |p| - 1 ==> !(p[i] == '/' && p[i + 1] == '/'))
    && (p == "." || NoDots(p))
  }

  type Path = p: string | Normal(p) witness "/"

  /** A name with a "." or ".." component is not a path of the model;
      "." alone, and components that merely contain dots, are. */
  lemma DotNames()
    ensures !Normal("/tmp/.") && !Normal("a/./b") && !Normal("./a") && !Normal("/a/..")
    ensures Normal(".") && Normal("/a.b/..c")
  {
    assert DotComponentAt("/tmp/.", 5);
    assert DotComponentAt("a/./b", 2);
    assert DotComponentAt("./a", 0);
    assert DotComponentAt("/a/..", 3);
  }

  predicate Absolute(p: Path) {
    p[0] == '/'
  }

  /** Index of the last slash of `s`, or -1 when there is none. */
  function LastSlash(s: string): (k: int)
    ensures -1 <= k < |s|
    ensures k >= 0 ==> s[k] == '/'
    ensures forall j :: k < j < |s| ==> s[j] != '/'
  {
    if |s| == 0 then -1
    else if s[|s| - 1] == '/' then |s| - 1
    else LastSlash(s[..|s| - 1])
  }

  /** A measure that every step of the `dirname` walk decreases, until it
      reaches one of the two fixed points. */
  function Rank(p: Path): nat {
    if p == "/" || p == "." then 0 else |p|
  }

  /** POSIX `dirname` on a normalised path: "/a/b" -> "/a", "/a" -> "/",
      "a" -> ".", "." -> ".", "/" -> "/". */
  function Dirname(p: Path): (d: Path)
    ensures Absolute(d) <==> Absolute(p)
    ensures d == p <==> p == "/" || p == "."
    ensures p != "/" && p != "." ==> Rank(d) < Rank(p)
    ensures |d| <= |p|
  {
    var k := LastSlash(p);
    if k < 0 then "."
    else if k == 0 then "/"
    else
      assert p[k - 1] != '/';
      var d := p[..k];
      NoDotsPrefix(p, k);
      assert Normal(d);
      d
  }

  /** The last component of a path other than the root. */
  function Basename(p: Path): string
    requires p != "/"
  {
    p[LastSlash(p) + 1..]
  }

  /** `Dirname` and `Basename` split a path without losing anything: the
      path is the directory part, a slash, then the last component. */
  lemma DirnameBasenameSplit(p: Path)
    requires p != "/"
    ensures |Basename(p)| > 0 && '/' !in Basename(p)
    ensures '/' !in p ==> Dirname(p) == "." && p == Basename(p)
    ensures '/' in p && Dirname(p) == "/" ==> p == "/" + Basename(p)
    ensures '/' in p && Dirname(p) != "/" ==> p == Dirname(p) + "/" + Basename(p)
  {
    var k := LastSlash(p);
    if k < 0 {
      assert '/' !in p by {
        forall j | 0 <= j < |p| ensures p[j] != '/' { }
      }
    } else {
      assert p[k] == '/';
      assert k < |p| - 1;
      if k == 0 {
        assert p == "/" + p[1..];
      } else {
        assert p == p[..k] + "/" + p[k + 1..];
      }
    }
  }

  /** Appending characters other than a slash leaves the last slash where
      it was. */
  lemma {:induction false} LastSlashAppend(a: string, b: string)
    requires '/' !in b
    ensures LastSlash(a + b) == LastSlash(a)
    decreases |b|
  {
    if |b| > 0 {
      var c := a + b;
      assert c[..|c| - 1] == a + b[..|b| - 1];
      assert c[|c| - 1] == b[|b| - 1];
      LastSlashAppend(a, b[..|b| - 1]);
    } else {
      assert a + b == a;
    }
  }

  /** A single component other than "." and ".." is not a dot component. */
  lemma NameNoDots(name: string)
    requires |name| > 0 && '/' !in name && name != "." && name != ".."
    ensures NoDots(name)
  {
    forall i | 0 <= i < |name|
      ensures !DotComponentAt(name, i)
    {
      if i > 0 {
        assert name[i - 1] in name;
      } else if |name| > 1 {
        assert name[1] in name;
        if |name| > 2 {
          assert name[2] in name;
        } else {
          assert name == [name[0], name[1]];
        }
      } else {
        assert name == [name[0]];
      }
    }
  }

  /** The components of a directory part are components of the path. */
  lemma NoDotsPrefix(p: string, k: nat)
    requires 0 < k < |p| && p[k] == '/' && NoDots(p)
    ensures NoDots(p[..k])
  {
    var d := p[..k];
    forall i | 0 <= i < |d|
      ensures !DotComponentAt(d, i)
    {
      assert !DotComponentAt(p, i);
    }
  }

  /** A slash in front adds no component. */
  lemma NoDotsAfterSlash(c: string)
    requires NoDots(c)
    ensures NoDots("/" + c)
  {
    var r := "/" + c;
    forall i | 0 <= i < |r|
      ensures !DotComponentAt(r, i)
    {
      if i > 0 {
        assert r[i] == c[i - 1];
        assert !DotComponentAt(c, i - 1);
      }
    }
  }

  /** Dropping a leading slash adds no component. */
  lemma NoDotsDropSlash(c: string)
    requires |c| > 0 && c[0] == '/' && NoDots(c)
    ensures NoDots(c[1..])
  {
    var r := c[1..];
    forall i | 0 <= i < |r|
      ensures !DotComponentAt(r, i)
    {
      assert !DotComponentAt(c, i + 1);
    }
  }

  /** Appending a path that starts with a slash keeps the components of
      both sides apart. */
  lemma NoDotsJoin(a: string, b: string)
    requires |b| > 0 && b[0] == '/' && NoDots(a) && NoDots(b)
    ensures NoDots(a + b)
  {
    var r := a + b;
    forall i | 0 <= i < |r|
      ensures !DotComponentAt(r, i)
    {
      if i < |a| {
        assert !DotComponentAt(a, i);
      } else if i > |a| {
        assert !DotComponentAt(b, i - |a|);
      }
    }
  }

  /** A single component is a relative path whose `dirname` is ".". */
  lemma DirnameOfName(name: string)
    requires |name| > 0 && '/' !in name && name != ".."
    ensures Normal(name) && Dirname(name) == "."
  {
    if name != "." {
      NameNoDots(name);
    }
    LastSlashAppend("", name);
    assert "" + name == name;
  }

  /** A component under the root has the root as its `dirname`. */
  lemma DirnameOfRootChild(name: string)
    requires |name| > 0 && '/' !in name && name != "." && name != ".."
    ensures Normal("/" + name) && Dirname("/" + name) == "/"
  {
    NameNoDots(name);
    NoDotsAfterSlash(name);
    var r := "/" + name;
    assert forall i :: 1 <= i < |r| ==> r[i] == name[i - 1];
    assert LastSlash("/") == 0;
    LastSlashAppend("/", name);
  }

  /** The converse of `DirnameBasenameSplit`: `dirname` of a component
      other than "." and ".." placed under a directory other than the root
      and "." is that directory. */
  lemma DirnameOfChild(d: Path, name: string)
    requires d != "/" && d != "." && |name| > 0 && '/' !in name && name != "." && name != ".."
    ensures Normal(d + "/" + name) && Dirname(d + "/" + name) == d
  {
    var p := d + "/" + name;
    NameNoDots(name);
    NoDotsAfterSlash(name);
    NoDotsJoin(d, "/" + name);
    assert p == d + ("/" + name);
    assert Normal(p) by {
      forall i | 0 <= i < |p| - 1
        ensures !(p[i] == '/' && p[i + 1] == '/')
      {
        if i < |d| - 1 {
          assert p[i] == d[i] && p[i + 1] == d[i + 1];
        } else if i == |d| - 1 {
          assert p[i] == d[|d| - 1];
        } else if i == |d| {
          assert p[i + 1] == name[0];
        } else {
          assert p[i] == name[i - |d| - 1];
        }
      }
    }
    assert LastSlash(d + "/") == |d|;
    LastSlashAppend(d + "/", name);
    assert p[..|d|] == d;
  }

  /** The candidates of an upward walk: `p`, `Dirname(p)`, ... up to but not
      including "/"; a relative walk ends with ".", the other fixed point. */
  function Lineage(p: Path): (r: seq<Path>)
    decreases Rank(p)
    ensures p != "/" ==> |r| > 0 && r[0] == p
    ensures p == "/" ==> r == []
    ensures forall i :: 0 <= i < |r| ==> r[i] != "/" && (Absolute(r[i]) <==> Absolute(p))
    ensures forall i :: 0 <= i < |r| - 1 ==> r[i] != "."
    ensures forall i :: 0 <= i < |r| ==> Rank(r[i]) <= Rank(p)
    ensures |r| > 0 && Absolute(p) ==> Dirname(r[|r| - 1]) == "/"
    ensures |r| > 0 && !Absolute(p) ==> r[|r| - 1] == "."
  {
    if p == "/" then []
    else if p == "." then ["."]
    else [p] + Lineage(Dirname(p))
  }

  /** One step of the walk: the lineage of `p` is `p`, then its parent's. */
  lemma LineageStep(p: Path)
    requires p != "/" && p != "."
    ensures Lineage(p) == [p] + Lineage(Dirname(p))
  {
  }

  /** Each candidate of the walk is the `dirname` of the one before it. */
  lemma {:induction false} LineageChain(p: Path, i: nat)
    requires i + 1 < |Lineage(p)|
    ensures Lineage(p)[i + 1] == Dirname(Lineage(p)[i])
    decreases i
  {
    LineageStep(p);
    if i > 0 {
      LineageChain(Dirname(p), i - 1);
    }
  }

  /** A strict ancestor of `p` in the walk never names `p` again. */
  lemma NotInOwnParentLineage(p: Path)
    requires p != "/" && p != "."
    ensures p !in Lineage(Dirname(p))
  {
  }

  /** The name that `stat` resolves the concatenation `root/c` to: joining a
      candidate onto a container root, with "." and "/" standing for the root
      itself and a leading slash of the candidate absorbed. */
  function Join(root: Path, c: Path): Path {
    if c == "." || c == "/" then root
    else if root == "/" then
      if Absolute(c) then c else SlashThen(c)
    else if root == "." then
      if Absolute(c) then DropSlash(c) else c
    else if Absolute(c) then Concat(root, c)
    else Concat(root, SlashThen(c))
  }

  function SlashThen(c: Path): Path
    requires !Absolute(c) && c != "."
  {
    NoDotsAfterSlash(c);
    var r := "/" + c;
    assert forall i :: 1 <= i < |r| ==> r[i] == c[i - 1];
    r
  }

  function DropSlash(c: Path): Path
    requires Absolute(c) && c != "/"
  {
    assert |c| > 1 && c[1] != '/';
    NoDotsDropSlash(c);
    var r := c[1..];
    assert forall i :: 0 <= i < |r| ==> r[i] == c[i + 1];
    r
  }

  /** Appends an absolute, non-root path to a path other than the root
      and ".". */
  function Concat(a: Path, b: Path): Path
    requires a != "/" && a != "." && Absolute(b) && b != "/"
  {
    NoDotsJoin(a, b);
    var r := a + b;
    assert forall i :: |a| <= i < |r| ==> r[i] == b[i - |a|];
    assert forall i :: 0 <= i < |a| ==> r[i] == a[i];
    r
  }
}

=== FILE: whole_file.dfy ===
/**
 * Whole-file I/O of file.c: `fileput` writes a C string over a file,
 * `filecat` reads a regular file back in full, and `copy_file` copies a
 * regular file's bytes and permission bits onto another path.
 */
module WholeFile {
  import opened Wrappers
  import opened Paths
  import opened FsState
  import opened Classify

  /** The bytes `fprintf(fd, "%s", s)` writes: `s` up to its first NUL. */
  function NulPrefix(s: seq<byte>): (r: seq<byte>)
    ensures r <= s
    ensures 0 !in r
    ensures |r| < |s| ==> s[|r|] == 0
  {
    if |s| == 0 || s[0] == 0 then []
    else [s[0]] + NulPrefix(s[1..])
  }

  /** `fgetc` on a stream at offset `pos`: the next byte as a value in
      0..255, or EOF (-1) at the end. */
  function Fgetc(data: seq<byte>, pos: nat): (c: int)
    ensures c == -1 || 0 <= c < 0x100
  {
    if pos < |data| then data[pos] else -1
  }

  /** The bytes the `fgetc` loops of `filecat` and `copy_file` take from a
      stream at offset `pos`, one call at a time until EOF. Since `fgetc`'s
      result is kept in an `int`, a 0xFF byte is never taken for EOF and
      the loop takes the rest of the file exactly. */
  function Drain(data: seq<byte>, pos: nat): (r: seq<byte>)
    requires pos <= |data|
    decreases |data| - pos
    ensures r == data[pos..]
  {
    var c := Fgetc(data, pos);
    if c == -1 then [] else [c] + Drain(data, pos + 1)
  }

  /** The read loop of `filecat` as written, storing each byte `fgetc`
      returns, then a NUL: it fills exactly the `length + 1` bytes
      allocated for it, with what `Drain` takes, and then a NUL. */
  method ReadUntilEof(data: seq<byte>) returns (buf: seq<byte>)
    ensures |buf| == |data| + 1
    ensures buf[..|data|] == data && buf[|data|] == 0
    ensures buf == Drain(data, 0) + [0]
  {
    buf := [];
    var pos := 0;
    var c := Fgetc(data, pos);
    while c != -1
      invariant 0 <= pos <= |data|
      invariant buf == data[..pos]
      invariant c == Fgetc(data, pos)
      decreases |data| - pos
    {
      buf := buf + [c];
      pos := pos + 1;
      c := Fgetc(data, pos);
    }
    buf := buf + [0];
  }

  /** Appends `bytes` to the regular file at `q`; a write of at least one
      byte drops the set-id bits as `ModeAfterWrite` says. Writes to a
      special file leave its entry as it is. */
  function WriteAll(fs: FileSystem, q: Path, bytes: seq<byte>): (fs': FileSystem)
    requires q in fs.entries
    ensures fs'.entries.Keys == fs.entries.Keys && fs'.nextIno == fs.nextIno && fs'.caller == fs.caller
    ensures forall k :: k in fs.entries ==> fs'.entries[k].dev == fs.entries[k].dev && fs'.entries[k].ino == fs.entries[k].ino
    ensures var e, e' := fs.entries[q], fs'.entries[q];
      && e'.uid == e.uid && e'.perm % 0x200 == e.perm % 0x200
      && (e.node.Reg? ==> e'.node == Reg(e.node.data + bytes))
    ensures forall a :: Permits(fs', fs'.entries[q], a) <==> Permits(fs, fs.entries[q], a)
  {
    var e := fs.entries[q];
    if !e.node.Reg? then fs
    else
      var e' := if |bytes| == 0 then e.(node := Reg(e.node.data))
                else e.(node := Reg(e.node.data + bytes), perm := ModeAfterWrite(fs, e.perm));
      ModeAfterWriteIdempotent(fs, e.perm);
      AccessKept(fs, e, e');
      fs.(entries := fs.entries[q := e'])
  }

  /** `fileput(path, string)`: -1 and no change when `fopen(path, "w")`
      fails; otherwise 0, with the file `path` resolves to holding exactly
      the bytes of `string` before its first NUL. */
  function FilePut(fs: FileSystem, path: Path, s: seq<byte>): (res: (int, FileSystem))
    ensures res.0 == 0 || res.0 == -1
    ensures res.0 == 0 <==> OpensForWriting(fs, path)
    ensures res.0 == -1 ==> res.1 == fs
    ensures res.0 == 0 ==> Target(fs, path).Some? && res.1.caller == fs.caller
    ensures res.0 == 0 ==> res.1.entries.Keys == fs.entries.Keys + {Target(fs, path).value}
    ensures res.0 == 0 ==> res.1.nextIno == if Target(fs, path).value in fs.entries then fs.nextIno else fs.nextIno + 1
    ensures res.0 == 0 ==> forall k :: k in fs.entries && k != Target(fs, path).value ==>
      k in res.1.entries && res.1.entries[k] == fs.entries[k]
    ensures res.0 == 0 ==>
      var q := Target(fs, path).value;
      q in res.1.entries && (res.1.entries[q].node.Reg? ==> res.1.entries[q].node.data == NulPrefix(s))
  {
    match OpenTrunc(fs, path)
    case OpenFailed => (-1, fs)
    case Opened(fs1, q) => (0, WriteAll(fs1, q, NulPrefix(s)))
  }

  /** `path` is a regular file the caller may open for reading. */
  predicate ReadableFile(fs: FileSystem, path: Path) {
    IsFile(fs, path) == 0 && Permits(fs, Stat(fs, path).value, Read)
  }

  /** `filecat(path)`: `NULL` unless `path` is a regular file the caller may
      open for reading; otherwise what the read loop takes, which is the
      file's whole contents. */
  function FileCat(fs: FileSystem, path: Path): (r: Option<seq<byte>>)
    ensures r.Some? <==> ReadableFile(fs, path)
    ensures r.Some? ==> r.value == Stat(fs, path).value.node.data
  {
    if IsFile(fs, path) < 0 then None
    else
      var e := fs.entries[Target(fs, path).value];
      if !Permits(fs, e, Read) then None
      else Some(Drain(e.node.data, 0))
  }

  /** What `fileput` wrote, `filecat` reads back, whenever `path` named a
      readable regular file or nothing at all. */
  lemma FilePutThenFileCat(fs: FileSystem, path: Path, s: seq<byte>)
    requires FilePut(fs, path, s).0 == 0
    requires Stat(fs, path).None? || (Stat(fs, path).value.node.Reg? && Permits(fs, Stat(fs, path).value, Read))
    ensures FileCat(FilePut(fs, path, s).1, path) == Some(NulPrefix(s))
  {
    var q := FilePutEntry(fs, path, s);
    var fs' := FilePut(fs, path, s).1;
    ResolveStable(fs, fs', path, MaxSymlinks, q);
    assert Stat(fs', path) == Some(fs'.entries[q]);
  }

  /** The entry `fileput` wrote is a readable regular file holding the
      bytes written, under the same conditions. */
  lemma FilePutEntry(fs: FileSystem, path: Path, s: seq<byte>) returns (q: Path)
    requires FilePut(fs, path, s).0 == 0
    requires Stat(fs, path).None? || (Stat(fs, path).value.node.Reg? && Permits(fs, Stat(fs, path).value, Read))
    ensures Target(fs, path) == Some(q)
    ensures var fs' := FilePut(fs, path, s).1;
      && q in fs'.entries && fs'.entries[q].node == Reg(NulPrefix(s)) && Permits(fs', fs'.entries[q], Read)
  {
    var o := OpenTrunc(fs, path);
    q := o.at;
    var fs' := WriteAll(o.fs, q, NulPrefix(s));
    assert FilePut(fs, path, s).1 == fs';
    assert o.fs.entries[q].node == Reg([]);
    if q in fs.entries {
      assert Stat(fs, path) == Some(fs.entries[q]);
      assert Permits(fs, fs.entries[q], Read);
      assert Permits(o.fs, o.fs.entries[q], Read);
    } else {
      OwnerMayReadNew(o.fs, o.fs.entries[q]);
    }
  }

  /** A file created with mode 0666 may be read by its owner. */
  lemma OwnerMayReadNew(fs: FileSystem, e: Entry)
    requires e.perm == 0x1B6 && e.uid == fs.caller
    ensures Permits(fs, e, Read)
  {
  }

  /** For a string without NUL the round trip is exact. */
  lemma FilePutThenFileCatExact(fs: FileSystem, path: Path, s: seq<byte>)
    requires 0 !in s
    requires FilePut(fs, path, s).0 == 0
    requires Stat(fs, path).None? || (Stat(fs, path).value.node.Reg? && Permits(fs, Stat(fs, path).value, Read))
    ensures FileCat(FilePut(fs, path, s).1, path) == Some(s)
  {
    FilePutThenFileCat(fs, path, s);
    assert NulPrefix(s) == s;
  }

  /** `copy_file(source, dest)`. Its steps, each failing with -1: `source`
      must be a regular file, be opened for reading, `dest` be opened for
      writing (which creates or truncates it), and the caller must own
      `dest` for `fchmod` to copy the source's mode; then the source's
      bytes are appended to `dest`. The source's bytes are read after
      `dest` was truncated, so a file copied onto itself ends up empty. */
  function CopyFile(fs: FileSystem, source: Path, dest: Path): (res: (int, FileSystem))
    ensures res.0 == 0 || res.0 == -1
    ensures res.0 == 0 <==>
      && ReadableFile(fs, source)
      && OpensForWriting(fs, dest)
      && (|| fs.caller == 0
          || Target(fs, dest).value !in fs.entries
          || fs.entries[Target(fs, dest).value].uid == fs.caller)
    ensures !(ReadableFile(fs, source) && OpensForWriting(fs, dest)) ==> res == (-1, fs)
  {
    if IsFile(fs, source) < 0 then (-1, fs)
    else
      var qs := Target(fs, source).value;
      if !Permits(fs, fs.entries[qs], Read) then (-1, fs)
      else match OpenTrunc(fs, dest)
        case OpenFailed => (-1, fs)
        case Opened(fs1, qd) =>
          var st := fs1.entries[qs];
          var d := fs1.entries[qd];
          if fs.caller != 0 && fs.caller != d.uid then (-1, fs1)
          else
            StModeFields(st);
            var fs2 := fs1.(entries := fs1.entries[qd := d.(perm := PermOf(StMode(st)))]);
            (0, WriteAll(fs2, qd, Drain(fs2.entries[qs].node.data, 0)))
  }

  /** A socket cannot be opened for writing, so `fileput` to it and
      `copy_file` onto it fail with -1 and change nothing. */
  lemma SocketRefused(fs: FileSystem, source: Path, dest: Path, s: seq<byte>)
    requires Stat(fs, dest).Some? && Stat(fs, dest).value.node == Sock
    ensures OpenTrunc(fs, dest) == OpenFailed
    ensures FilePut(fs, dest, s) == (-1, fs)
    ensures CopyFile(fs, source, dest) == (-1, fs)
  {
  }

  /** `fileput` keeps every file to one name. */
  lemma FilePutKeepsOneName(fs: FileSystem, path: Path, s: seq<byte>)
    requires OneNamePerFile(fs)
    ensures OneNamePerFile(FilePut(fs, path, s).1)
  {
    var o := OpenTrunc(fs, path);
    if o.Opened? {
      OpenTruncKeepsOneName(fs, path);
      SameIdentities(o.fs, WriteAll(o.fs, o.at, NulPrefix(s)));
    }
  }

  /** `copy_file` keeps every file to one name, on success and on failure. */
  lemma CopyFileKeepsOneName(fs: FileSystem, source: Path, dest: Path)
    requires OneNamePerFile(fs)
    ensures OneNamePerFile(CopyFile(fs, source, dest).1)
  {
    if CopyFile(fs, source, dest).0 == -1 {
      CopyFileFailedState(fs, source, dest);
      if CopyFile(fs, source, dest).1 != fs {
        OpenTruncKeepsOneName(fs, dest);
      }
    } else {
      var qs, qd, fs1 := CopyFileSteps(fs, source, dest);
      OpenTruncKeepsOneName(fs, dest);
      ChmodWriteKeepsOneName(fs1, qd, fs1.entries[qs].perm, fs1.entries[qs].node.data);
    }
  }

  /** Changing the mode of an entry and appending to it keeps the invariant. */
  lemma ChmodWriteKeepsOneName(fs: FileSystem, q: Path, perm: Perm, bytes: seq<byte>)
    requires OneNamePerFile(fs) && q in fs.entries
    ensures OneNamePerFile(WriteAll(fs.(entries := fs.entries[q := fs.entries[q].(perm := perm)]), q, bytes))
  {
    var fs2 := fs.(entries := fs.entries[q := fs.entries[q].(perm := perm)]);
    SameIdentities(fs, fs2);
    SameIdentities(fs2, WriteAll(fs2, q, bytes));
  }

  /** A failed `copy_file` leaves the state as it was, or as the open of
      `dest` left it. */
  lemma CopyFileFailedState(fs: FileSystem, source: Path, dest: Path)
    requires CopyFile(fs, source, dest).0 == -1
    ensures || CopyFile(fs, source, dest).1 == fs
            || (OpenTrunc(fs, dest).Opened? && CopyFile(fs, source, dest).1 == OpenTrunc(fs, dest).fs)
  {
  }

  /** The successful path through `copy_file`, step by step. */
  lemma CopyFileSteps(fs: FileSystem, source: Path, dest: Path) returns (qs: Path, qd: Path, fs1: FileSystem)
    requires CopyFile(fs, source, dest).0 == 0
    ensures Target(fs, source) == Some(qs) && qs in fs.entries && fs.entries[qs].node.Reg?
    ensures OpenTrunc(fs, dest) == Opened(fs1, qd)
    ensures qs in fs1.entries && qd in fs1.entries
    ensures CopyFile(fs, source, dest).1 ==
      WriteAll(fs1.(entries := fs1.entries[qd := fs1.entries[qd].(perm := fs1.entries[qs].perm)]), qd, fs1.entries[qs].node.data)
  {
    qs := Target(fs, source).value;
    var o := OpenTrunc(fs, dest);
    fs1, qd := o.fs, o.at;
    StModeFields(fs1.entries[qs]);
  }

  /** On success nothing but the entry `dest` resolves to changed: that
      name is the only one that may be new, and it takes the only inode
      number that may be handed out. */
  lemma CopyFileSuccess(fs: FileSystem, source: Path, dest: Path)
    requires CopyFile(fs, source, dest).0 == 0
    ensures Target(fs, dest).Some? && Stat(fs, source).Some?
    ensures var fs' := CopyFile(fs, source, dest).1;
      && Stat(fs', dest).Some?
      && fs'.entries.Keys == fs.entries.Keys + {Target(fs, dest).value}
      && fs'.nextIno == (if Target(fs, dest).value in fs.entries then fs.nextIno else fs.nextIno + 1)
      && fs'.caller == fs.caller
      && (forall k :: k in fs.entries && k != Target(fs, dest).value ==> k in fs'.entries && fs'.entries[k] == fs.entries[k])
  {
    var qs, qd, fs1 := CopyFileSteps(fs, source, dest);
    var fs' := CopyFile(fs, source, dest).1;
    ResolveStable(fs, fs', dest, MaxSymlinks, qd);
    assert Stat(fs', dest) == Some(fs'.entries[qd]);
  }

  /** On success `dest` carries the source's mode, less the set-id bits
      that an unprivileged truncation or write drops: the copy's writes
      drop them when at least one byte reaches a regular file, and a file
      copied onto itself lost them when it was truncated. */
  lemma CopyFileMode(fs: FileSystem, source: Path, dest: Path)
    requires CopyFile(fs, source, dest).0 == 0
    ensures Stat(fs, source).Some? && Target(fs, dest).Some?
    ensures var fs' := CopyFile(fs, source, dest).1;
      var src := Stat(fs, source).value;
      var written := || Target(fs, source) == Target(fs, dest)
                     || ((Stat(fs, dest).None? || Stat(fs, dest).value.node.Reg?) && |src.node.data| > 0);
      && Stat(fs', dest).Some?
      && Stat(fs', dest).value.perm == if written then ModeAfterWrite(fs, src.perm) else src.perm
  {
    var qs, qd, fs1 := CopyFileSteps(fs, source, dest);
    var fs' := CopyFile(fs, source, dest).1;
    ResolveStable(fs, fs', dest, MaxSymlinks, qd);
    assert Stat(fs', dest) == Some(fs'.entries[qd]);
    ModeAfterWriteIdempotent(fs, fs.entries[qs].perm);
    if qs == qd {
      assert fs1.entries[qs].node == Reg([]);
    } else {
      assert fs1.entries[qs] == fs.entries[qs];
      if qd in fs.entries {
        assert Stat(fs, dest) == Some(fs.entries[qd]);
      }
    }
  }

  /** When `dest` named a regular file or nothing and is not the source
      itself, it ends up holding exactly the source's bytes. */
  lemma CopyFileContents(fs: FileSystem, source: Path, dest: Path)
    requires CopyFile(fs, source, dest).0 == 0
    requires Target(fs, source) != Target(fs, dest)
    requires Stat(fs, dest).None? || Stat(fs, dest).value.node.Reg?
    ensures Stat(fs, source).Some?
    ensures var fs' := CopyFile(fs, source, dest).1;
      Stat(fs', dest).Some? && Stat(fs', dest).value.node == Stat(fs, source).value.node
  {
    var qs, qd, fs1 := CopyFileSteps(fs, source, dest);
    assert fs1.entries[qs] == fs.entries[qs];
    assert fs1.entries[qd].node == Reg([]);
    var fs2 := fs1.(entries := fs1.entries[qd := fs1.entries[qd].(perm := fs1.entries[qs].perm)]);
    WriteThrough(fs, fs2, dest, qd, fs1.entries[qs].node.data);
  }

  /** Writing to the regular file that `dest` resolves to, in a state that
      otherwise agrees with `fs`, leaves `dest` resolving to it. */
  lemma WriteThrough(fs: FileSystem, fs2: FileSystem, dest: Path, qd: Path, bytes: seq<byte>)
    requires Target(fs, dest) == Some(qd)
    requires qd in fs2.entries && fs2.entries[qd].node.Reg?
    requires forall k :: k in fs.entries && k != qd ==> k in fs2.entries && fs2.entries[k] == fs.entries[k]
    ensures Stat(WriteAll(fs2, qd, bytes), dest) == Some(WriteAll(fs2, qd, bytes).entries[qd])
    ensures WriteAll(fs2, qd, bytes).entries[qd].node == Reg(fs2.entries[qd].node.data + bytes)
  {
    ResolveStable(fs, WriteAll(fs2, qd, bytes), dest, MaxSymlinks, qd);
  }

  /** A file copied onto itself (the same entry after following links)
      loses its contents: `dest` is truncated before the source is read. */
  lemma CopyFileOntoItself(fs: FileSystem, source: Path, dest: Path)
    requires Target(fs, source) == Target(fs, dest)
    requires CopyFile(fs, source, dest).0 == 0
    ensures Stat(CopyFile(fs, source, dest).1, dest).Some?
    ensures Stat(CopyFile(fs, source, dest).1, dest).value.node == Reg([])
  {
    var qs, qd, fs1 := CopyFileSteps(fs, source, dest);
    var fs' := CopyFile(fs, source, dest).1;
    assert qs == qd && fs1.entries[qd].node == Reg([]);
    ResolveStable(fs, fs', dest, MaxSymlinks, qd);
  }

  /** A failure after `dest` was opened leaves `dest` an empty regular file:
      the state changes on a failure only then. */
  lemma CopyFileLateFailure(fs: FileSystem, source: Path, dest: Path)
    requires CopyFile(fs, source, dest).0 == -1
    requires CopyFile(fs, source, dest).1 != fs
    ensures Stat(CopyFile(fs, source, dest).1, dest).Some?
    ensures Stat(CopyFile(fs, source, dest).1, dest).value.node == Reg([])
  {
    var o := OpenTrunc(fs, dest);
    var fs1, qd := o.fs, o.at;
    assert CopyFile(fs, source, dest).1 == fs1;
    assert fs1.entries[qd].node == Reg([]);
    ResolveStable(fs, fs1, dest, MaxSymlinks, qd);
  }

  /** After a successful copy between distinct files, reading `dest` gives
      what reading the source gave, if the caller may read `dest`. */
  lemma CopyFileThenFileCat(fs: FileSystem, source: Path, dest: Path)
    requires CopyFile(fs, source, dest).0 == 0
    requires Target(fs, source) != Target(fs, dest)
    requires Stat(fs, dest).None? || Stat(fs, dest).value.node.Reg?
    requires var fs' := CopyFile(fs, source, dest).1;
      Stat(fs', dest).Some? && Permits(fs', Stat(fs', dest).value, Read)
    ensures FileCat(CopyFile(fs, source, dest).1, dest) == FileCat(fs, source)
  {
    CopyFileContents(fs, source, dest);
    var qs := Target(fs, source).value;
    assert Permits(fs, fs.entries[qs], Read);
  }

  /** A root-owned set-user-id program "/s" (mode 04755) holding two bytes,
      under a world-writable "/", seen by user 1000. */
  function SetUidWorld(): FileSystem {
    FileSystem(map["/" := Entry(Dir, 0x1FF, 0, 1, 2), "/s" := Entry(Reg([1, 2]), 0x9ED, 0, 1, 3)], 1000, 10)
  }

  /** User 1000 copying "/s" to a new "/d" gets a copy with mode 0755:
      `fchmod` sets 04755, and the first byte written clears S_ISUID. */
  lemma SetUidCopyScenario()
    ensures var r := CopyFile(SetUidWorld(), "/s", "/d");
      && r.0 == 0 && Stat(r.1, "/d").Some? && Stat(r.1, "/d").value.perm == 0x1ED
  {
    DirnameOfRootChild("d");
    assert "/" + "d" == "/d";
    SetUidCopyAt(SetUidWorld(), "/s", "/d");
  }

  /** The scenario above with the names bound to variables. */
  lemma SetUidCopyAt(fs: FileSystem, s: Path, d: Path)
    requires fs == SetUidWorld() && s == "/s" && d == "/d" && Dirname(d) == "/"
    ensures var r := CopyFile(fs, s, d);
      && r.0 == 0 && Stat(r.1, d).Some? && Stat(r.1, d).value.perm == 0x1ED
  {
    SetUidCopyOpens(fs, s, d);
    CopyFileMode(fs, s, d);
    assert Stat(fs, s) == Some(fs.entries[s]);
    assert DropSetId(0x9ED) == 0x1ED;
  }

  /** In that scenario the copy gets past every step. */
  lemma SetUidCopyOpens(fs: FileSystem, s: Path, d: Path)
    requires fs == SetUidWorld() && s == "/s" && d == "/d" && Dirname(d) == "/"
    ensures Target(fs, s) == Some(s) && Target(fs, d) == Some(d) && d !in fs.entries
    ensures CopyFile(fs, s, d).0 == 0
  {
    assert Target(fs, s) == Some(s);
    assert Target(fs, d) == Some(d);
    assert Stat(fs, "/") == Some(fs.entries["/"]);
    assert ReadableFile(fs, s);
    assert OpensForWriting(fs, d);
  }
}

=== FILE: wrappers.dfy ===
/**
 * The two result shapes of the model: `Option` for C's "address or NULL"
 * returns, and `Outcome` for a call that either returns a value or, as the
 * recursions of file.c can on a relative path, never returns at all.
 */
module Wrappers {

  datatype Option<+T> = None | Some(value: T)

  /** `Diverges` stands for a call that never returns normally: a loop
      that runs forever, or a recursion on the same arguments that only
      ends when the stack overflows and the process dies. Either way the
      caller observes no result. */
  datatype Outcome<+T> = Returns(value: T) | Diverges
}
